=== FILE: README.md ===
# B-tree node codec and insertion core, in Dafny

This project models the core of a small Go B-tree (`pkg/btree/node.go` and
`pkg/btree/tree.go`) and proves properties of the model. It covers three parts.

- **The node codec.** A node (`BNode`) is a byte string. It has a 4-byte
  little-endian header: the node type (1 = internal `NODE`, 2 = `LEAF`),
  then the entry count. Every node, leaves included, has 8-byte child-pointer
  slots next. Then come 2-byte cumulative record offsets, then
  `[klen:2][vlen:2][key][val]` records. All position arithmetic is `uint16`,
  so it wraps modulo 65536, and the model writes that wrap out (`Bytes.Wrap16`).
- **Node building and search.** This part covers the last-index-≤-key scan,
  the range copy, leaf update, leaf insert and the split into two halves.
  - The per-entry writer `nodeAppendKeyVal` has an empty body in the source.
    A node under construction is therefore its buffer (the header it sets)
    plus the sequence of writer calls made on it (`Builder.Write`).
  - The contracts speak about which source entry goes to which destination
    position.
- **The tree level.**
  - `shouldMerge`, the three-way merge decision.
  - `treeInsert`, the descent.
  - `BTree.Insert`, the root life cycle. It runs over an abstract page store:
    a map from page id to page, a counter for fresh ids, and a log of
    `create` and `del` calls.

Go's `(value, error)` returns become `Errors.Result`. Errors the source
discards (`v, _ := f()`) become `GetOr` of the zero value. Slice accesses that
would panic on a short buffer become preconditions: `Node.Readable` says that
every accessor of every entry stays inside the buffer. It covers entries below
the count only; the one place the source reads past them, the second split
loop, is cut at the count instead (see `Split.GrowLeft` under "## Left out").

The main operations follow the code as written, including its defects. Each
defect is listed under "## Findings", and a corrected member with the
evidently intended property proved stands beside the as-written one.

## Model

| member | source | states |
|---|---|---|
| Bytes.Compare | pkg/btree/node.go:165 | `bytes.Compare` is three-valued and returns 0 exactly when the byte strings are equal; `CompareAntisymmetric` and `CompareTransitive` make it a strict total order |
| Node.SetHeader | pkg/btree/node.go:35-51 | after `setHeader(t, n)`, `btype()` (`Node.BType`) reads `t`, `nkeys()` (`Node.NKeys`) reads `n`, the length is kept and every byte from position 4 on is unchanged |
| Node.GetPtr | pkg/btree/node.go:53-59 | fails with "out of range index" exactly when `isValidIndex` (`Node.IsValidIndex`, `index < nkeys()`) fails; otherwise it is the little-endian value of the 8 bytes at `4 + 8*index` (uint16) |
| Node.SetPtr | pkg/btree/node.go:61-68 | fails exactly when `index >= nkeys()`; otherwise it keeps the length and the header, changes only the 8 bytes of the slot, and a following `getPtr(index)` returns the value stored |
| Node.SetPtrKeepsOtherSlots | pkg/btree/node.go:61-68 | storing into slot i leaves the count and the pointer in any other slot j unchanged |
| Node.GetOffset | pkg/btree/node.go:71-78 | the offset of entry 0 is 0; any other offset is the 2-byte field at `4 + 8*nkeys + 2*(index-1)` |
| Node.KvPos | pkg/btree/node.go:81-88 | fails with "invalid index" exactly when `index > nkeys`; otherwise it is `4 + 10*nkeys + getOffset(index)` in uint16 |
| Node.NBytes | pkg/btree/node.go:43-46 | `nbytes()` is `kvPos(nkeys())`, and it is 4 for a node with no entries |
| Node.GetKey | pkg/btree/node.go:108-120 | fails exactly when `index >= nkeys()`; otherwise it is the `klen` bytes at `kvPos+4`, `klen` being the 2-byte field at `kvPos` |
| Node.GetValue | pkg/btree/node.go:91-105 | fails exactly when `index >= nkeys()`; otherwise it is the `vlen` bytes right after the key, `vlen` being the 2-byte field at `kvPos+2` |
| Node.ReadRecord | pkg/btree/node.go:91-120 | when a record `[klen][vlen][key][val]` sits at entry i's position, `getKey(i)` returns that key and `getValue(i)` that value |
| Lookup.LookupLE | pkg/btree/node.go:158-178 | the scan returns a valid index whose key is ≤ the search key, all earlier keys being smaller and the next key larger unless the match is exact; or it returns 65535 exactly when there are no keys or key 0 is already larger |
| Lookup.NodeLookupLE | pkg/btree/node.go:158-178 | on a node, the result is a valid index or 65535, and it is 65535 exactly when the node is empty or its first key is larger than the search key |
| Lookup.LookupIsLastLE | pkg/btree/node.go:157-178 | on strictly increasing keys, every key after the result (every key, for 65535) is larger than the search key: the result is the last index whose key is ≤ it |
| Lookup.LookupFindsFirstMatch | pkg/btree/node.go:162-169 | on non-decreasing keys, a key that is present is found, at its first occurrence |
| Lookup.LookupInsertionPoint | pkg/btree/node.go:157-178 | on strictly increasing keys without the search key, all keys before the position after the result are smaller and all keys from it on are larger |
| Builder.AppendAcrossRange | pkg/btree/node.go:134-143 | `nodeAppendAcrossRange` makes n writer calls; call i sends source entry `src+i` (uint16) to position `dest+i`, and a source position past the entries sends (0, nil, nil) |
| Builder.UpdateWritesAtNoIndex | pkg/btree/node.go:150-155 | `leafUpdate` at index 65535 on entries `es`: 65536 + (number of entries) writer calls, the first copy reading past the count as (0, nil, nil), the new entry at 65535, and `index+1` wrapping to 0 so the old entries are written again at their own positions |
| Builder.LeafUpdate | pkg/btree/node.go:150-155 | a LEAF with the old count; for an index inside the node every position is written once, in order, with the old entry, except that position `index` receives (0, key, val) |
| Builder.LeafInsert | pkg/btree/node.go:128-131 | as written: a LEAF whose header says `nkeys+1` (uint16), with exactly `index` writer calls copying entries `0..index-1` in place |
| Builder.LeafInsertLosesEntries | pkg/btree/node.go:128-131 | for any insertion position inside the node, fewer entries are written than the header announces, and position `index` is never written |
| Builder.LeafInsertCorrected | pkg/btree/node.go:128-131 | corrected: count `nkeys+1`, every position written once, in order, the entries being the old ones with (key, val) inserted at `index` |
| Split.LeftBytes | pkg/btree/node.go:190-192 | the left size of 0 entries is 4, the header alone, which is why the shrink loop stops |
| Split.ShrinkLeft | pkg/btree/node.go:189-196 | the first loop ends at the largest count not above the start whose left size fits one page; every larger count up to the start overflows the page |
| Split.GrowLeft | pkg/btree/node.go:204-210 | the second loop, bounded by nkeys, ends at the first count from its start whose right-size test fits a page, or at nkeys; every count it passes failed the test |
| Split.SplitPoint | pkg/btree/node.go:182-214 | the split count is an error for fewer than 2 entries, an error exactly when every left count from 1 to nkeys/2 overflows, "error when shifting keys" otherwise on failure, and on success `1 <= numleft < nkeys` with the right-size test passed; the first loop's result (the largest fitting left count at most nkeys/2) is at least 1 and at most the returned count |
| Split.SplitPointShift | pkg/btree/node.go:204-214 | the returned count is the first one, from the first loop's result upward, whose right part fits; the shifting error occurs exactly when there are at least 2 entries, the first loop found a fitting left count, and no count from there to nkeys-1 makes the right part fit |
| Split.ShiftPoint | pkg/btree/node.go:204-214 | the second loop alone: it fails with the shifting error exactly when no count from its start below nkeys passes the right-size test, and otherwise returns the first such count |
| Split.SplitInHalf | pkg/btree/node.go:181-224 | as written: fails with the too-few-keys error exactly when nkeys < 2 and otherwise only with the empty-left or shifting error; it fails exactly when the split count computed with the as-written right-size test does, with the same error, and on success the left half's count is that split count; on success both halves carry the old type, their counts sum to nkeys, the left half holds entries `0..numleft-1` and the right half entries `0..numright-1`, all in order |
| Split.SplitInHalfDuplicatesFirst | pkg/btree/node.go:216-221 | whenever the split succeeds, old entry 0 is written first into both halves |
| Split.RightBytesRejectsSmallNode | pkg/btree/node.go:204-214 | on a 2-entry, 24-byte node whose halves measure 14 bytes, the right size as written (`Split.RightBytes`, `nbytes - left_bytes*4` in uint16) is 65504 and the split fails with "error when shifting keys" |
| Split.RightBytesCorrectedIsRightSize | pkg/btree/node.go:204-206 | when nothing wraps, the corrected right size is the encoded size of a node holding entries numleft..nkeys-1 |
| Split.SplitInHalfCorrected | pkg/btree/node.go:181-224 | corrected: the same failure kinds and header facts, it fails exactly when the split count computed with the corrected right-size test does and its left count is that split count, the right half's size fits a page, and the left half's entries followed by the right half's are exactly the old entries |
| Split.CorrectedSplitsSmallNode | pkg/btree/node.go:204-214 | on the same small node the corrected split succeeds with one entry in each half |
| Split.TwoEmptyEntriesSplit | pkg/btree/node.go:204-214 | the concrete LEAF of two empty entries is such a node: as written its split fails with "error when shifting keys", corrected it splits one entry to each side |
| Store.Get | pkg/btree/tree.go:7-8 | `get(id)` succeeds exactly for a held id and fails with that id otherwise |
| Store.Create | pkg/btree/tree.go:9-10 | `create(page)` stores the page under one id and logs the call; on a valid store the id is non-zero and not in use |
| Store.Del | pkg/btree/tree.go:11-12 | `del(id)` removes the page, logs the call and keeps the store valid |
| Store.GetAfterCreate | pkg/btree/tree.go:7-10 | a created page reads back under its id; other ids read as before |
| Store.GetAfterDel | pkg/btree/tree.go:7-12 | a deleted page no longer reads; other ids read as before |
| Merge.ShouldMerge | pkg/btree/tree.go:103-128 | the result is −1, 0 or +1, and 0 goes with an empty node and only 0 does. Above the threshold `4096/4` the result is 0 and no sibling is read. It is −1 exactly when the left sibling exists and their merged size (uint16) fits a page. It is +1 exactly when the left option was read but not taken and the right sibling exists and fits, so the left sibling is preferred when both fit. The returned node is that sibling. It is an error exactly when a sibling it must read is missing: the left one below the threshold, or the right one when the left option was read and not taken; in every other case the direction comes back with no error |
| Tree.LeafStep | pkg/btree/tree.go:24-31 | as written: the leaf keeps its count, and for a lookup index inside the node every position is written once, in order, with the old entry, except that position `index` receives the entry's own key with the new value |
| Tree.LeafStepWritesOldKeys | pkg/btree/tree.go:24-28 | as written, for every lookup result: every key handed to the writer is a key the leaf already holds, or nil |
| Tree.LeafStepBelowAll | pkg/btree/tree.go:24-28 | when the lookup yields 65535 (an empty leaf, or a key below every stored key), the leaf keeps its count and `leafUpdate(next, node, 65535, nil, val)` makes 65536 + nkeys writer calls: positions 0..65534 get the old entries then (0, nil, nil), position 65535 gets (0, nil, val), and the wrapped `index+1` copies every old entry again in place; no call below the count carries the new value |
| Tree.TreeInsertLeafDropsNewKey | pkg/btree/tree.go:24-31 | at a LEAF, a non-empty key the leaf does not hold is never written and the count does not grow |
| Tree.LeafUpsert | pkg/btree/tree.go:24-31 | corrected: an exact match is updated in place; otherwise the pair is inserted after the lookup index and the count grows by one |
| Tree.LeafUpsertSorted | pkg/btree/tree.go:24-31 | on a leaf with strictly increasing keys, the corrected step writes strictly increasing keys that include the new key and every old key |
| Tree.TreeInsert | pkg/btree/tree.go:19-43 | a LEAF is rebuilt by the leaf step with the store untouched. At an internal node the child step runs, and its error is the result's. Any other type yields the zeroed buffer of `2*4096` bytes |
| Tree.ChildStep | pkg/btree/tree.go:32-39 | it reads the child pointer at the lookup index (0 when out of range); an unknown pointer is an error; on success that pointer is freed by the last store call. For a known pointer with depth left it succeeds exactly when the descent into that child succeeds, and then the result is the descent's store with the child freed, and the descent's buffer split into at most three pieces |
| Tree.Bootstrap | pkg/btree/tree.go:55-62 | an empty tree gets one `create` of a 4096-byte LEAF announcing 2 entries. That page becomes the root, nothing is deleted, and the writer calls are the two sentinels |
| Tree.BootstrapDropsPair | pkg/btree/tree.go:58-60 | the first insert into an empty tree writes no entry carrying the inserted key |
| Tree.BootstrapCorrected | pkg/btree/tree.go:55-62 | corrected: the same create, with the writer calls being the empty-key sentinel and then the inserted pair |
| Tree.BootstrapCorrectedStoresPair | pkg/btree/tree.go:58-60 | the corrected first leaf holds the pair, with strictly increasing keys |
| Tree.CreateAll | pkg/btree/tree.go:74-75 | one `create` per piece, in order, appended to the log |
| Tree.CreateAllStores | pkg/btree/tree.go:74-75 | on a valid store the ids are consecutive and fresh, each piece is stored under its id, and held pages are kept |
| Tree.RootOver | pkg/btree/tree.go:71-79 | every piece is created, then an INTERNAL root announcing one entry per piece, whose writer call i records piece i's id and first key |
| Tree.Grow | pkg/btree/tree.go:69-82 | after the descent the old root is deleted, once and first; then only creations follow, count + 1 of them for several pieces (one per piece, then the root) and 1 for one; the last creates the new root |
| Tree.GrowRoot | pkg/btree/tree.go:71-82 | one piece becomes the root as it is; several pieces get an INTERNAL root with `count` entries pointing at their created ids |
| Tree.GrowStores | pkg/btree/tree.go:69-82 | on a valid store with room, the store stays valid, the new root id is non-zero and was not in use, and each root entry's id holds its piece |
| Tree.Insert | pkg/btree/tree.go:49-84 | the size check refuses first. An empty tree is bootstrapped. An unknown root is an error. For a held root within the size limit the insert succeeds exactly when the descent from the root succeeds, and then the result is `Grow` over the split pieces of the descent's buffer |

## Left out

- `BTree.Delete` (pkg/btree/tree.go:93) has no body in the source, so there is nothing to model.
- `nodeSplit3`, `nodeReplaceKidN` and `checkLimit` are not part of this model, because their definitions are not in these files. They are parameters: `Tree.Splitter`, `Tree.Replacer`, and a predicate `withinLimit`. Of `nodeSplit3` the model assumes what a node split is meant to produce: 1 to 3 pieces, each a readable page (`Tree.Split3`). Go itself only needs the count to be at most 3 to slice the array of 3. The rebuilt buffer keeps its length, as a Go slice argument must.
- `nodeAppendKeyVal` is an empty stub, so no entry bytes are ever stored. Built nodes are their header plus the log of writer calls, and no byte-level round trip through the writer is claimed.
- Split.GrowLeft: the second loop of `nodeSplitInHalf` has no evident termination measure (uint16 wrap, and `right_bytes` need not fall). It is bounded by nkeys and exits to the line-212 error. Past nkeys the source's `left_bytes` reads `getOffset(numleft)` beyond the offset table, which `Node.Readable` does not cover: depending on those bytes the source may reach the line-212 error, wrap the count past 65535, or panic in `binary.LittleEndian.Uint16` (pkg/btree/node.go:77) when the read runs off a short buffer. A 28-byte LEAF of two empty entries panics at count 5, while the model reports the line-212 error; on the 4096-byte `Split.TwoEmptyEntries` the source does reach that error, at count 1537.
- Tree.TreeInsert: the descent carries a `fuel` bound and fails with `DepthExhausted` when it runs out. At an internal node its contract says nothing about the buffer `nodeReplaceKidN` produces.
- Tree.ChildStep: a child pointer the store does not hold is an `UnknownPage` error. The source's `get` callback cannot fail.
- Tree.Insert: a root id the store does not hold is an `UnknownPage` error, for the same reason.
- Merge.ShouldMerge: a sibling the store does not hold is an `UnknownPage` error, for the same reason.
- The real page store's I/O, persistence and id allocation are out of scope. `Store.Create` hands out consecutive ids that stop at 2^64-1, and freshness is proved for stores with room left.
- Go slice panics on short buffers are preconditions (`HasHeader`, `Readable`) rather than behaviour, for every read of an entry below the count; the split loop's reads past the count are the exception described under `Split.GrowLeft`. `getKey`/`getValue` reslicing into a slice's spare capacity is not modelled.
- The commented-out pseudo-struct (pkg/btree/node.go:21-29) and the performance TODOs are out of scope.
- `BTREE_MAX_KEY_SIZE_BYTES` and `BREE_MAX_VAL_SIZE_BYTES` only matter to `checkLimit`, which is a parameter here, so they are not modelled.
- Tree.Split3: a `nodeSplit3` count of 0 is not modelled. With it, `Insert` would create `splitNodes[0]` as the new root (pkg/btree/tree.go:80-81) and the descent would hand `nodeReplaceKidN` no pieces; nothing in these files says `nodeSplit3` can return it.
- Split.SplitInHalfCorrected does not promise that the left half fits a page. The second loop moves entries left without re-checking `left_bytes`, and a node larger than two pages cannot be split into two that fit.

## Findings

| source | as written | input that shows it | evidently intended | confidence | as-written member | corrected member |
|---|---|---|---|---|---|---|
| pkg/btree/tree.go:26-27 | `key, _ := node.getKey(index)` shadows the argument, so `bytes.Equal(key, key)` always holds and a leaf is always updated with its own key | a leaf holding only "a" and an insert of "b": no entry "b" is written and the count stays 1 | compare the stored key with the inserted key; update on a match, insert after the lookup index otherwise | high (not executed) | Tree.LeafStep, Tree.LeafStepWritesOldKeys, Tree.TreeInsertLeafDropsNewKey | Tree.LeafUpsert, Tree.LeafUpsertSorted |
| pkg/btree/node.go:128-131 | `leafInsert` copies only entries `0..index-1` and never writes the new pair or the entries after it | any leaf and an index inside it: the header announces nkeys+1 entries but only `index` are written | copy `0..index-1`, write (key, val) at `index`, copy the rest shifted by one | high (not executed) | Builder.LeafInsert, Builder.LeafInsertLosesEntries | Builder.LeafInsertCorrected |
| pkg/btree/node.go:221 | the right half copies from source position 0 | any successful split: old entry 0 is the first entry written into both halves, while the entries from max(numleft, numright) on are never copied (when the second loop pushes numleft above numright, entries numright..numleft-1 are copied, but only into the left half) | copy from source position `numleft` | high (not executed) | Split.SplitInHalf, Split.SplitInHalfDuplicatesFirst | Split.SplitInHalfCorrected |
| pkg/btree/node.go:205 | `right_bytes` is `nbytes - left_bytes*4` | a 2-entry, 24-byte node whose halves need 14 bytes each: 24 - 56 wraps to 65504, so the split fails | `nbytes - left_bytes + HEADER_SIZE`, the right half's own size | medium (not executed) | Split.RightBytesRejectsSmallNode, Split.TwoEmptyEntriesSplit | Split.RightBytesCorrectedIsRightSize, Split.CorrectedSplitsSmallNode |
| pkg/btree/tree.go:59-60 | the first root leaf gets two nil-key sentinels and the inserted pair is dropped, while `Insert` reports success | `Insert("a", "1")` on an empty tree: no writer call carries "a" | one empty-key sentinel, then the inserted pair | medium (not executed) | Tree.Bootstrap, Tree.BootstrapDropsPair | Tree.BootstrapCorrected, Tree.BootstrapCorrectedStoresPair |

=== FILE: builder.dfy ===
/** Node building in pkg/btree/node.go. The per-entry writer
    `nodeAppendKeyVal` has an empty body in the source, so no entry bytes are
    ever written; a build is modelled as the header it sets plus the
    sequence of writer calls it makes, each recording the destination
    position and the (pointer, key, value) handed to the writer. */
module Builder {
  import opened Bytes
  import opened Errors
  import opened Node

  datatype Entry = Entry(ptr: u64, key: Bytes, val: Bytes)

  /** One call `nodeAppendKeyVal(next, dest, ptr, key, val)`. */
  datatype Write = Write(dest: u16, entry: Entry)

  /** A node under construction: its buffer and the writer calls made on it. */
  datatype Built = Built(buf: BNode, writes: seq<Write>)

  /** The entries handed to the writer, in call order. */
  function Entries(ws: seq<Write>): (es: seq<Entry>)
    ensures |es| == |ws|
    ensures forall i :: 0 <= i < |ws| ==> es[i] == ws[i].entry
  {
    seq(|ws|, i requires 0 <= i < |ws| => ws[i].entry)
  }

  /** Every writer call targets the position equal to its place in the
      call sequence: positions 0..|ws|-1 are each written exactly once. */
  predicate WritesInOrder(ws: seq<Write>) {
    forall i :: 0 <= i < |ws| ==> ws[i].dest == i
  }

  /** The entry at source position `src` of a readable node, as
      `getPtr`, `getKey` and `getValue` return it. */
  function SourceEntry(prev: BNode, src: u16): (e: Entry)
    requires Readable(prev) && src < NKeys(prev)
    ensures EntryInBounds(prev, src)
    ensures GetPtr(prev, src) == Ok(e.ptr)
    ensures GetKey(prev, src) == Ok(e.key) && e.key == KeyAt(prev, src)
    ensures GetValue(prev, src) == Ok(e.val)
  {
    assert EntryInBounds(prev, src);
    Entry(GetPtr(prev, src).value, GetKey(prev, src).value, GetValue(prev, src).value)
  }

  /** The keys of a sequence of entries. */
  function EntryKeys(es: seq<Entry>): (ks: seq<Bytes>)
    ensures |ks| == |es| && forall i :: 0 <= i < |es| ==> ks[i] == es[i].key
  {
    seq(|es|, i requires 0 <= i < |es| => es[i].key)
  }

  /** The entries of a readable node in order, as the accessors read them;
      their keys are the node's keys. */
  function EntriesOf(prev: BNode): (es: seq<Entry>)
    requires Readable(prev)
    ensures |es| == NKeys(prev)
    ensures forall i :: 0 <= i < |es| ==> es[i] == SourceEntry(prev, i)
    ensures forall i :: 0 <= i < |es| ==> es[i].key == KeysOf(prev)[i]
    ensures EntryKeys(es) == KeysOf(prev)
  {
    var es := seq(NKeys(prev), i requires 0 <= i < NKeys(prev) => SourceEntry(prev, i));
    assert EntryKeys(es) == KeysOf(prev);
    es
  }

  /** Inserting an entry inserts its key at the same position. */
  lemma EntryKeysInsert(es: seq<Entry>, p: nat, e: Entry)
    requires p <= |es|
    ensures EntryKeys(es[..p] + [e] + es[p..]) == EntryKeys(es)[..p] + [e.key] + EntryKeys(es)[p..]
  {
  }

  /** Replacing an entry by one with the same key keeps the keys. */
  lemma EntryKeysUpdate(es: seq<Entry>, i: nat, e: Entry)
    requires i < |es| && e.key == es[i].key
    ensures EntryKeys(es[i := e]) == EntryKeys(es)
  {
  }

  /** The zero-valued entry (0, nil, nil) a failed read yields. */
  const NoEntry: Entry := Entry(0, [], [])

  /** What `nodeAppendAcrossRange` reads at source position `src` of a node
      with entries `es`: the accessors' errors are discarded, so a position
      at or past the entry count reads as (0, nil, nil). */
  function ReadEntry(es: seq<Entry>, src: u16): (e: Entry)
    ensures src < |es| ==> e == es[src]
    ensures src >= |es| ==> e == NoEntry
  {
    if src < |es| then es[src] else NoEntry
  }

  /** `nodeAppendAcrossRange(next, old, dest, src, n)` on a node whose
      entries are `es`: n writer calls, call i sending source entry src+i
      to position dest+i (both uint16). */
  function AppendAcrossRange(es: seq<Entry>, dest: u16, src: u16, n: u16): (w: seq<Write>)
    ensures |w| == n
    ensures forall i :: 0 <= i < n ==> w[i] == Write(Wrap16(dest + i), ReadEntry(es, Wrap16(src + i)))
    decreases n
  {
    if n == 0 then []
    else AppendAcrossRange(es, dest, src, n - 1) + [Write(Wrap16(dest + n - 1), ReadEntry(es, Wrap16(src + n - 1)))]
  }

  /** The writer calls of `nodeAppendAcrossRange(next, old, 0, src, n)` when
      the range lies inside the node: positions 0..n-1 receive source
      entries src..src+n-1, in order. */
  function CopyRange(es: seq<Entry>, src: u16, n: u16): (w: seq<Write>)
    requires src + n <= |es| < U16_MOD
    ensures |w| == n && WritesInOrder(w)
    ensures Entries(w) == es[src..src + n]
  {
    var w := AppendAcrossRange(es, 0, src, n);
    forall i | 0 <= i < n
      ensures w[i] == Write(i, es[src + i])
    {
    }
    assert Entries(w) == es[src..src + n];
    w
  }

  /** Two copies that together cover a node: positions 0..at-1 of the first
      target and 0..|es|-at-1 of the second, from entries before and from
      `at` respectively. */
  function SplitWrites(es: seq<Entry>, at: u16): (w: (seq<Write>, seq<Write>))
    requires at <= |es| < U16_MOD
    ensures |w.0| == at && |w.1| == |es| - at
    ensures WritesInOrder(w.0) && WritesInOrder(w.1)
    ensures Entries(w.0) + Entries(w.1) == es
  {
    var lw := CopyRange(es, 0, at);
    var rw := CopyRange(es, at, |es| - at);
    assert Entries(lw) + Entries(rw) == es[..at] + es[at..];
    (lw, rw)
  }

  /** The writer calls of `leafUpdate` on a node with entries `es`: the
      entries before `index` in place, `e` at `index`, then the entries after
      it in place, the last count being the uint16 `nkeys-(index+1)`. */
  function UpdateWrites(es: seq<Entry>, index: u16, e: Entry): (w: seq<Write>)
    requires |es| < U16_MOD
    ensures index < |es| ==>
      && |w| == |es|
      && WritesInOrder(w)
      && w[index].entry == e
      && forall i :: 0 <= i < |w| && i != index ==> w[i].entry == es[i]
    ensures index < |es| ==> Entries(w) == es[index := e]
    ensures forall i :: 0 <= i < |w| ==> w[i].entry == e || w[i].entry == NoEntry || w[i].entry in es
  {
    var front := AppendAcrossRange(es, 0, 0, index);
    var back := AppendAcrossRange(es, Wrap16(index + 1), Wrap16(index + 1), Wrap16(|es| - Wrap16(index + 1)));
    var w := front + [Write(index, e)] + back;
    forall i | 0 <= i < |w|
      ensures index < |es| ==> w[i].dest == i && w[i].entry == (if i == index then e else es[i])
      ensures w[i].entry == e || w[i].entry == NoEntry || w[i].entry in es
    {
      if i < |front| {
        assert w[i] == front[i];
      } else if i > |front| {
        assert w[i] == back[i - |front| - 1];
      }
    }
    assert index < |es| ==> Entries(w) == es[index := e];
    w
  }

  /** `leafUpdate`: a LEAF with the old entry count whose position `index`
      receives (key, val) and whose every other position copies the old
      entry there. For an index past the entries the uint16 count
      `nkeys-(index+1)` wraps and the copies run on with (0, nil, nil). */
  function LeafUpdate(next: BNode, prev: BNode, index: u16, key: Bytes, val: Bytes): (r: Built)
    requires HasHeader(next) && Readable(prev)
    ensures |r.buf| == |next| && r.buf[HEADER..] == next[HEADER..]
    ensures BType(r.buf) == LEAF && NKeys(r.buf) == NKeys(prev)
    ensures index < NKeys(prev) ==>
      && |r.writes| == NKeys(prev)
      && WritesInOrder(r.writes)
      && r.writes[index].entry == Entry(0, key, val)
      && forall i :: 0 <= i < |r.writes| && i != index ==> r.writes[i].entry == EntriesOf(prev)[i]
    ensures index < NKeys(prev) ==> Entries(r.writes) == EntriesOf(prev)[index := Entry(0, key, val)]
    ensures forall i :: 0 <= i < |r.writes| ==>
      r.writes[i].entry == Entry(0, key, val) || r.writes[i].entry == NoEntry || r.writes[i].entry in EntriesOf(prev)
  {
    Built(SetHeader(next, LEAF, NKeys(prev)), UpdateWrites(EntriesOf(prev), index, Entry(0, key, val)))
  }

  /** The writer calls of `leafUpdate` at index 0xFFFF, the uint16 lookup
      result for "no entry", on a node with entries `es`: the first copy
      runs over positions 0..0xFFFE, reading the old entries and then
      (0, nil, nil) past the count; `e` goes to position 0xFFFF; `index+1`
      wraps to 0, so the second copy writes every old entry again at its
      own position. Every call aimed below the count carries the old entry
      there, so `e` is never stored inside the node. */
  predicate UpdatedAtNoIndex(w: seq<Write>, es: seq<Entry>, e: Entry) {
    && |es| < U16_MOD
    && |w| == U16_MOD + |es|
    && (forall i :: 0 <= i < 0xFFFF ==> w[i] == Write(i, ReadEntry(es, i)))
    && w[0xFFFF] == Write(0xFFFF, e)
    && (forall j :: 0 <= j < |es| ==> w[U16_MOD + j] == Write(j, es[j]))
    && (forall i :: 0 <= i < |w| && w[i].dest < |es| ==> w[i].entry == es[w[i].dest])
  }

  /** `leafUpdate` at index 0xFFFF makes 65536 + |es| calls, as above. */
  lemma {:induction false} UpdateWritesAtNoIndex(es: seq<Entry>, e: Entry)
    requires |es| < U16_MOD
    ensures UpdatedAtNoIndex(UpdateWrites(es, 0xFFFF, e), es, e)
  {
    var front := AppendAcrossRange(es, 0, 0, 0xFFFF);
    var back := AppendAcrossRange(es, 0, 0, |es|);
    assert UpdateWrites(es, 0xFFFF, e) == front + [Write(0xFFFF, e)] + back by {
      assert Wrap16(0xFFFF + 1) == 0 && Wrap16(|es| - 0) == |es|;
    }
    AppendFromZero(es, 0xFFFF);
    AppendFromZero(es, |es|);
    NoIndexLayout(es, e, front, back);
  }

  /** The three runs of calls `leafUpdate` makes at index 0xFFFF, put
      together. */
  lemma NoIndexLayout(es: seq<Entry>, e: Entry, front: seq<Write>, back: seq<Write>)
    requires |es| < U16_MOD && |front| == 0xFFFF && |back| == |es|
    requires forall i :: 0 <= i < 0xFFFF ==> front[i] == Write(i, ReadEntry(es, i))
    requires forall j :: 0 <= j < |es| ==> back[j] == Write(j, ReadEntry(es, j))
    ensures UpdatedAtNoIndex(front + [Write(0xFFFF, e)] + back, es, e)
  {
    var w := front + [Write(0xFFFF, e)] + back;
    forall i | 0 <= i < 0xFFFF
      ensures w[i] == Write(i, ReadEntry(es, i))
    {
      assert w[i] == front[i];
    }
    forall j | 0 <= j < |es|
      ensures w[U16_MOD + j] == Write(j, es[j])
    {
      assert w[U16_MOD + j] == back[j];
    }
    forall i | 0 <= i < |w| && w[i].dest < |es|
      ensures w[i].entry == es[w[i].dest]
    {
      if i >= U16_MOD {
        assert w[i] == back[i - U16_MOD];
      } else if i < 0xFFFF {
        assert w[i] == front[i];
      }
    }
  }

  /** `nodeAppendAcrossRange(next, old, 0, 0, n)` writes source position i
      to position i. */
  lemma AppendFromZero(es: seq<Entry>, n: u16)
    ensures var w := AppendAcrossRange(es, 0, 0, n);
      forall i :: 0 <= i < n ==> w[i] == Write(i, ReadEntry(es, i))
  {
    var w := AppendAcrossRange(es, 0, 0, n);
    forall i | 0 <= i < n
      ensures w[i] == Write(i, ReadEntry(es, i))
    {
      assert Wrap16(0 + i) == i;
    }
  }

  /** When every call hands over `e`, the empty entry or an old entry, every
      key handed over is `e`'s key, nil or an old key. */
  lemma WrittenKeys(ws: seq<Write>, es: seq<Entry>, e: Entry)
    requires forall i :: 0 <= i < |ws| ==> ws[i].entry == e || ws[i].entry == NoEntry || ws[i].entry in es
    ensures forall i :: 0 <= i < |ws| ==> ws[i].entry.key in EntryKeys(es) || ws[i].entry.key == e.key || ws[i].entry.key == []
  {
    forall i | 0 <= i < |ws| && ws[i].entry in es
      ensures ws[i].entry.key in EntryKeys(es)
    {
      var j :| 0 <= j < |es| && es[j] == ws[i].entry;
      assert EntryKeys(es)[j] == ws[i].entry.key;
    }
  }

  /** `leafUpdate` with an entry whose key is nil or an old key hands the
      writer only nil or old keys. */
  lemma UpdateWritesKeys(es: seq<Entry>, index: u16, e: Entry)
    requires |es| < U16_MOD
    requires e.key in EntryKeys(es) || e.key == []
    ensures var w := UpdateWrites(es, index, e);
      forall i :: 0 <= i < |w| ==> w[i].entry.key in EntryKeys(es) || w[i].entry.key == []
  {
    WrittenKeys(UpdateWrites(es, index, e), es, e);
  }

  /** `leafInsert` as written: a LEAF header with count old+1 (uint16), but
      only the entries before `index` are copied; the new entry and the
      entries from `index` on are never handed to the writer. */
  function LeafInsert(next: BNode, prev: BNode, index: u16, key: Bytes, val: Bytes): (r: Built)
    requires HasHeader(next) && Readable(prev)
    ensures |r.buf| == |next| && r.buf[HEADER..] == next[HEADER..]
    ensures BType(r.buf) == LEAF && NKeys(r.buf) == Wrap16(NKeys(prev) + 1)
    ensures |r.writes| == index
    ensures forall i :: 0 <= i < |r.writes| ==> r.writes[i] == Write(i, ReadEntry(EntriesOf(prev), i))
  {
    Built(SetHeader(next, LEAF, Wrap16(NKeys(prev) + 1)), AppendAcrossRange(EntriesOf(prev), 0, 0, index))
  }

  /** The defect of `leafInsert`: for any insertion position inside the node,
      the header announces more entries than were written, and nothing is
      written at the insertion position. */
  lemma LeafInsertLosesEntries(next: BNode, prev: BNode, index: u16, key: Bytes, val: Bytes)
    requires HasHeader(next) && Readable(prev)
    requires index <= NKeys(prev) < 0xFFFF
    ensures var r := LeafInsert(next, prev, index, key, val);
      && |r.writes| < NKeys(r.buf)
      && forall i :: 0 <= i < |r.writes| ==> r.writes[i].dest != index
  {
  }

  /** The writer calls of an insertion at `index`: the entries before it in
      place, `e`, then the entries from `index` on shifted up by one. */
  function InsertWrites(es: seq<Entry>, index: u16, e: Entry): (w: seq<Write>)
    requires index <= |es| < 0xFFFF
    ensures |w| == |es| + 1 && WritesInOrder(w)
    ensures Entries(w) == es[..index] + [e] + es[index..]
  {
    var front := AppendAcrossRange(es, 0, 0, index);
    var back := AppendAcrossRange(es, index + 1, index, |es| - index);
    var w := front + [Write(index, e)] + back;
    var target := es[..index] + [e] + es[index..];
    forall i | 0 <= i < |w|
      ensures w[i].dest == i && w[i].entry == target[i]
    {
      if i < index {
        assert w[i] == front[i];
      } else if i > index {
        assert w[i] == back[i - index - 1];
      }
    }
    assert Entries(w) == target;
    w
  }

  /** `leafInsert` as evidently intended: old entries before `index`, then
      (key, val), then the old entries from `index` on, shifted by one. */
  function LeafInsertCorrected(next: BNode, prev: BNode, index: u16, key: Bytes, val: Bytes): (r: Built)
    requires HasHeader(next) && Readable(prev)
    requires index <= NKeys(prev) < 0xFFFF
    ensures |r.buf| == |next| && r.buf[HEADER..] == next[HEADER..]
    ensures BType(r.buf) == LEAF && NKeys(r.buf) == NKeys(prev) + 1
    ensures |r.writes| == NKeys(r.buf) && WritesInOrder(r.writes)
    ensures Entries(r.writes) == EntriesOf(prev)[..index] + [Entry(0, key, val)] + EntriesOf(prev)[index..]
  {
    Built(SetHeader(next, LEAF, NKeys(prev) + 1), InsertWrites(EntriesOf(prev), index, Entry(0, key, val)))
  }
}

=== FILE: bytes.dfy ===
/** Fixed-width integers, little-endian fields and the byte-string order,
    as Go's `encoding/binary.LittleEndian` and `bytes.Compare` provide them. */
module Bytes {

  type u8 = x: int | 0 <= x < 0x100
  type u16 = x: int | 0 <= x < 0x1_0000
  type u64 = x: int | 0 <= x < 0x1_0000_0000_0000_0000
  type Bytes = seq<u8>

  const U16_MOD: int := 0x1_0000

  /** Go's uint16 arithmetic: the mathematical result reduced modulo 2^16. */
  function Wrap16(x: int): (r: u16)
    ensures 0 <= x < U16_MOD ==> r == x
    ensures U16_MOD <= x < 2 * U16_MOD ==> r == x - U16_MOD
    ensures -U16_MOD <= x < 0 ==> r == x + U16_MOD
  {
    x % U16_MOD
  }

  /** 256 to the power n: one more than the largest n-byte unsigned value. */
  function Pow256(n: nat): (r: nat)
    ensures r >= 1
  {
    if n == 0 then 1 else 256 * Pow256(n - 1)
  }

  /** The unsigned value of `bs` read least significant byte first. */
  function DecodeLe(bs: Bytes): (r: nat)
    ensures r < Pow256(|bs|)
  {
    if |bs| == 0 then 0 else bs[0] + 256 * DecodeLe(bs[1..])
  }

  /** The n-byte little-endian encoding of v (high bytes beyond n are dropped,
      as a truncating store does). */
  function EncodeLe(v: nat, n: nat): (r: Bytes)
    ensures |r| == n
  {
    if n == 0 then [] else [v % 256] + EncodeLe(v / 256, n - 1)
  }

  lemma {:induction false} DecodeEncodeLe(v: nat, n: nat)
    requires v < Pow256(n)
    ensures DecodeLe(EncodeLe(v, n)) == v
  {
    if n > 0 {
      var e := EncodeLe(v, n);
      assert e[1..] == EncodeLe(v / 256, n - 1);
      DecodeEncodeLe(v / 256, n - 1);
    }
  }

  lemma {:induction false} DecodeZeros(bs: Bytes)
    requires forall k :: 0 <= k < |bs| ==> bs[k] == 0
    ensures DecodeLe(bs) == 0
  {
    if |bs| > 0 {
      DecodeZeros(bs[1..]);
    }
  }

  /** The w-byte little-endian field at `pos` (Go: `Uint16(s[pos:])`,
      `Uint64(s[pos:])`); the slice must hold the whole field. */
  function ReadLe(s: Bytes, pos: int, w: nat): (r: nat)
    requires 0 <= pos && pos + w <= |s|
    ensures r < Pow256(w)
  {
    DecodeLe(s[pos..pos + w])
  }

  /** `s` with the w-byte little-endian encoding of v stored at `pos`
      (Go: `PutUint16(s[pos:], v)`, `PutUint64(s[pos:], v)`). */
  function WriteLe(s: Bytes, pos: int, w: nat, v: nat): (r: Bytes)
    requires 0 <= pos && pos + w <= |s|
    requires v < Pow256(w)
    ensures |r| == |s|
    ensures ReadLe(r, pos, w) == v
    ensures forall k :: 0 <= k < |s| && !(pos <= k < pos + w) ==> r[k] == s[k]
  {
    var r := s[..pos] + EncodeLe(v, w) + s[pos + w..];
    assert r[pos..pos + w] == EncodeLe(v, w);
    DecodeEncodeLe(v, w);
    r
  }

  /** A slice holding `p + q` splits into a slice holding `p` followed by one holding `q`. */
  lemma SliceSplit(s: Bytes, a: int, p: Bytes, q: Bytes)
    requires 0 <= a && a + |p| + |q| <= |s|
    requires s[a..a + |p| + |q|] == p + q
    ensures s[a..a + |p|] == p
    ensures s[a + |p|..a + |p| + |q|] == q
  {
    assert s[a..a + |p|] == s[a..a + |p| + |q|][..|p|];
    assert s[a + |p|..a + |p| + |q|] == s[a..a + |p| + |q|][|p|..];
  }

  /** A 2-byte little-endian field. */
  function Le16(s: Bytes, pos: int): (r: u16)
    requires 0 <= pos && pos + 2 <= |s|
  {
    ReadLe(s, pos, 2)
  }

  /** An 8-byte little-endian field. */
  function Le64(s: Bytes, pos: int): (r: u64)
    requires 0 <= pos && pos + 8 <= |s|
  {
    ReadLe(s, pos, 8)
  }

  /** A 2-byte field whose two bytes are zero reads as zero. */
  lemma Le16OfZeros(s: Bytes, pos: int)
    requires 0 <= pos && pos + 2 <= |s|
    requires s[pos] == 0 && s[pos + 1] == 0
    ensures Le16(s, pos) == 0
  {
    DecodeZeros(s[pos..pos + 2]);
  }

  /** The n-byte string of zeros (Go: `make([]byte, n)`). */
  function Zeros(n: nat): (r: Bytes)
    ensures |r| == n
    ensures forall k :: 0 <= k < n ==> r[k] == 0
  {
    seq(n, _ => 0)
  }

  /** Go's `bytes.Compare`: lexicographic order on byte strings,
      -1 when a < b, 0 when equal, +1 when a > b; a proper prefix is smaller. */
  function Compare(a: Bytes, b: Bytes): (r: int)
    ensures r == -1 || r == 0 || r == 1
    ensures r == 0 <==> a == b
    decreases |a|
  {
    if |a| == 0 then (if |b| == 0 then 0 else -1)
    else if |b| == 0 then 1
    else if a[0] < b[0] then -1
    else if a[0] > b[0] then 1
    else
      var c := Compare(a[1..], b[1..]);
      assert a == [a[0]] + a[1..] && b == [b[0]] + b[1..];
      c
  }

  predicate Less(a: Bytes, b: Bytes) { Compare(a, b) < 0 }
  predicate LessEq(a: Bytes, b: Bytes) { Compare(a, b) <= 0 }

  /** Swapping the operands negates the comparison. */
  lemma {:induction false} CompareAntisymmetric(a: Bytes, b: Bytes)
    ensures Compare(b, a) == -Compare(a, b)
    decreases |a|
  {
    if |a| > 0 && |b| > 0 && a[0] == b[0] {
      CompareAntisymmetric(a[1..], b[1..]);
    }
  }

  /** `LessEq` is transitive, and strictly so when either step is strict. */
  lemma {:induction false} CompareTransitive(a: Bytes, b: Bytes, c: Bytes)
    requires LessEq(a, b) && LessEq(b, c)
    ensures LessEq(a, c)
    ensures Less(a, b) || Less(b, c) ==> Less(a, c)
    decreases |a|
  {
    if |a| > 0 && |b| > 0 && |c| > 0 && a[0] == b[0] && b[0] == c[0] {
      CompareTransitive(a[1..], b[1..], c[1..]);
    }
  }
}

=== FILE: errors.dfy ===
/** Error values returned by the B-tree core, and the Result type that
    carries them. Go returns `(value, error)` pairs; here a call either
    succeeds with a value or fails with one of these kinds. */
module Errors {

  datatype Error =
    | OutOfRangeIndex        // getPtr / setPtr: "out of range index"
    | InvalidIndex           // kvPos: "invalid index"
    | KeyIndexOutOfBounds    // getKey / getValue: "index out of bounds when accessing key"
    | TooFewKeys             // nodeSplitInHalf: fewer than 2 keys
    | EmptyLeftHalf          // nodeSplitInHalf: the left half shrank to 0 keys
    | ShiftFailed            // nodeSplitInHalf: "error when shifting keys"
    | LimitExceeded          // the size-limit check refused the key or value
    | UnknownPage(id: nat)   // the page store was asked for a page id it does not hold
    | DepthExhausted         // the descent budget of the tree walker ran out

  datatype Result<T> = Ok(value: T) | Err(error: Error) {

    /** The value on success, `default` on failure: Go's `v, _ := f()`
        where a failing call yields the zero value. */
    function GetOr(default: T): T {
      match this
      case Ok(v) => v
      case Err(_) => default
    }
  }

  datatype Option<T> = None | Some(value: T)
}

=== FILE: lookup.dfy ===
/** `nodeLookupLE` (pkg/btree/node.go): a linear scan for the last entry
    whose key is <= the search key. The result is a uint16, so "no such
    entry" comes out as 0 - 1 = 65535. */
module Lookup {
  import opened Bytes
  import opened Node

  /** The uint16 that `i - 1` yields for i == 0: no entry is <= the key. */
  const NO_INDEX: u16 := 0xFFFF

  /** Keys in non-decreasing byte order. */
  predicate Sorted(keys: seq<Bytes>) {
    forall i, j :: 0 <= i < j < |keys| ==> LessEq(keys[i], keys[j])
  }

  /** Keys in strictly increasing byte order, as every node is meant to hold. */
  predicate StrictlySorted(keys: seq<Bytes>) {
    forall i, j :: 0 <= i < j < |keys| ==> Less(keys[i], keys[j])
  }

  /** The loop of `nodeLookupLE` from position i on, every earlier key
      having compared smaller than `key`; `keys` are the node's keys as
      `getKey` returns them (no index here is out of range). */
  function ScanLE(keys: seq<Bytes>, key: Bytes, i: nat): (r: u16)
    requires i <= |keys| < U16_MOD
    requires forall t :: 0 <= t < i ==> Less(keys[t], key)
    ensures r == NO_INDEX || r < |keys|
    ensures r != NO_INDEX ==> LessEq(keys[r], key)
    ensures r != NO_INDEX ==> forall t :: 0 <= t < r ==> Less(keys[t], key)
    ensures r != NO_INDEX && Less(keys[r], key) && r + 1 < |keys| ==> Less(key, keys[r + 1])
    ensures r == NO_INDEX ==> i == 0 && (|keys| == 0 || Less(key, keys[0]))
    decreases |keys| - i
  {
    if i < |keys| then
      var cmp := Compare(keys[i], key);
      if cmp == 0 then i
      else if cmp > 0 then
        CompareAntisymmetric(keys[i], key);
        var r := Wrap16(i - 1);
        assert r != NO_INDEX ==> r == i - 1 && Less(keys[i - 1], key);
        r
      else ScanLE(keys, key, i + 1)
    else
      var r := Wrap16(i - 1);
      assert r != NO_INDEX ==> r == i - 1 && Less(keys[i - 1], key);
      r
  }

  /** `nodeLookupLE` over the key list: the index the scan stops at,
      described without the loop. The result is a valid index whose key is
      <= `key`, every earlier key being < `key` and the next key, unless it
      matched exactly, being > `key`; or it is NO_INDEX exactly when there
      are no keys or the first key is already greater than `key`. */
  function LookupLE(keys: seq<Bytes>, key: Bytes): (r: u16)
    requires |keys| < U16_MOD
    ensures r == NO_INDEX || r < |keys|
    ensures r != NO_INDEX ==> LessEq(keys[r], key)
    ensures r != NO_INDEX ==> forall t :: 0 <= t < r ==> Less(keys[t], key)
    ensures r != NO_INDEX && Less(keys[r], key) && r + 1 < |keys| ==> Less(key, keys[r + 1])
    ensures r == NO_INDEX <==> |keys| == 0 || Less(key, keys[0])
  {
    var r := ScanLE(keys, key, 0);
    assert |keys| > 0 && Less(key, keys[0]) ==> r == NO_INDEX by {
      if |keys| > 0 {
        CompareAntisymmetric(keys[0], key);
      }
    }
    r
  }

  /** `nodeLookupLE` on a node: the scan over the keys `getKey` returns. */
  function NodeLookupLE(node: BNode, key: Bytes): (r: u16)
    requires Readable(node)
    ensures r == NO_INDEX || r < NKeys(node)
    ensures r == NO_INDEX <==> NKeys(node) == 0 || Less(key, KeyAt(node, 0))
  {
    LookupLE(KeysOf(node), key)
  }

  /** On keys in strictly increasing order the result is the LAST index
      whose key is <= `key`: every later key is greater. When it is
      NO_INDEX, every key is greater. */
  lemma {:induction false} LookupIsLastLE(keys: seq<Bytes>, key: Bytes)
    requires |keys| < U16_MOD && StrictlySorted(keys)
    ensures var r := LookupLE(keys, key);
      forall t :: (r == NO_INDEX || r < t) && 0 <= t < |keys| ==> Less(key, keys[t])
  {
    var r := LookupLE(keys, key);
    forall t | (r == NO_INDEX || r < t) && 0 <= t < |keys|
      ensures Less(key, keys[t])
    {
      if r == NO_INDEX {
        if t > 0 {
          CompareTransitive(key, keys[0], keys[t]);
        }
      } else if keys[r] == key {
        assert Less(keys[r], keys[t]);
      } else {
        if t > r + 1 {
          CompareTransitive(key, keys[r + 1], keys[t]);
        }
      }
    }
  }

  /** On keys in non-decreasing order, a key that is present is found at
      its first occurrence. */
  lemma {:induction false} LookupFindsFirstMatch(keys: seq<Bytes>, key: Bytes, j: nat)
    requires |keys| < U16_MOD && Sorted(keys)
    requires j < |keys| && keys[j] == key
    ensures var r := LookupLE(keys, key);
      r != NO_INDEX && keys[r] == key && forall t :: 0 <= t < r ==> keys[t] != key
  {
    var r := LookupLE(keys, key);
    if j > 0 {
      assert LessEq(keys[0], keys[j]);
    }
    CompareAntisymmetric(keys[0], key);
    assert r != NO_INDEX;
    if keys[r] != key {
      assert r < j;
      assert LessEq(keys[r + 1], keys[j]) by {
        if r + 1 < j {
          assert LessEq(keys[r + 1], keys[j]);
        }
      }
      CompareAntisymmetric(key, keys[r + 1]);
      assert false;
    }
  }

  /** Where a key that is absent belongs: with r the lookup result and p
      the uint16 r+1 (0 when r is NO_INDEX), every key before p is smaller
      than `key` and every key from p on is larger. */
  lemma {:induction false} LookupInsertionPoint(keys: seq<Bytes>, key: Bytes)
    requires |keys| < U16_MOD - 1 && StrictlySorted(keys)
    requires var r := LookupLE(keys, key); !(r != NO_INDEX && keys[r] == key)
    ensures var p := Wrap16(LookupLE(keys, key) + 1);
      && p <= |keys|
      && (forall t :: 0 <= t < p ==> Less(keys[t], key))
      && (forall t :: p <= t < |keys| ==> Less(key, keys[t]))
  {
    var r := LookupLE(keys, key);
    LookupIsLastLE(keys, key);
    var p := Wrap16(r as int + 1);
    forall t | 0 <= t < p
      ensures Less(keys[t], key)
    {
      if t == r {
        assert keys[t] != key;
      }
    }
  }

  /** Putting `key` at position p of strictly increasing keys, every key
      before p being smaller and every key from p on larger, keeps them
      strictly increasing; the result holds `key` and every old key. */
  lemma InsertKeepsSorted(keys: seq<Bytes>, p: nat, key: Bytes)
    requires StrictlySorted(keys) && p <= |keys|
    requires forall t :: 0 <= t < p ==> Less(keys[t], key)
    requires forall t :: p <= t < |keys| ==> Less(key, keys[t])
    ensures StrictlySorted(keys[..p] + [key] + keys[p..])
    ensures key in keys[..p] + [key] + keys[p..]
    ensures forall k :: k in keys ==> k in keys[..p] + [key] + keys[p..]
  {
  }
}

=== FILE: merge.dfy ===
/** `shouldMerge` (pkg/btree/tree.go): whether an updated child that has
    become small should be merged with its left or right sibling. */
module Merge {
  import opened Bytes
  import opened Errors
  import opened Node
  import opened Store

  /** `MERGE_THRESHOLD_BTYES`: a quarter page. */
  const MERGE_THRESHOLD_BYTES: int := PAGE_SIZE / 4

  /** The uint16 size of `sibling` and `updated` merged: both sizes less one
      header. */
  function MergedSize(sibling: Page, updated: Page): u16 {
    Wrap16(NBytes(sibling) + NBytes(updated) - HEADER)
  }

  /** The sibling id stored at `index` of `node`; an index past the
      entries reads as 0, the discarded error's zero value. */
  function SiblingId(node: Page, index: u16): u64 {
    assert index < NKeys(node) ==> EntryInBounds(node, index);
    GetPtr(node, index).GetOr(0)
  }

  /** The left sibling (index-1) is a merge candidate: it exists, the store
      holds it and the merge fits one page. */
  predicate LeftFits(s: Store, node: Page, index: u16, updated: Page) {
    && index > 0
    && Get(s, SiblingId(node, index - 1)).Ok?
    && MergedSize(Get(s, SiblingId(node, index - 1)).value, updated) <= PAGE_SIZE
  }

  /** The right sibling (index+1, in uint16) is a merge candidate. */
  predicate RightFits(s: Store, node: Page, index: u16, updated: Page) {
    && Wrap16(index + 1) < NKeys(node)
    && Get(s, SiblingId(node, Wrap16(index + 1))).Ok?
    && MergedSize(Get(s, SiblingId(node, Wrap16(index + 1))).value, updated) <= PAGE_SIZE
  }

  /** `shouldMerge(tree, node, index, updated)`: -1 with the left sibling,
      +1 with the right sibling, or 0 with an empty node. A child above the
      threshold is never merged and no sibling is read; the left sibling is
      tried first. Reading a sibling the store does not hold is an error. */
  function ShouldMerge(s: Store, node: Page, index: u16, updated: Page): (r: Result<(int, BNode)>)
    ensures r.Ok? ==> r.value.0 in {-1, 0, 1}
    ensures r.Ok? ==> (r.value.0 == 0 <==> r.value.1 == [])
    ensures NBytes(updated) > MERGE_THRESHOLD_BYTES ==> r == Ok((0, []))
    ensures r.Ok? && r.value.0 == -1 <==>
      NBytes(updated) <= MERGE_THRESHOLD_BYTES && LeftFits(s, node, index, updated)
    ensures r.Ok? && r.value.0 == -1 ==> r.value.1 == s.pages[SiblingId(node, index - 1)]
    ensures r.Ok? && r.value.0 == 1 <==>
      && NBytes(updated) <= MERGE_THRESHOLD_BYTES
      && (index > 0 ==> Get(s, SiblingId(node, index - 1)).Ok?)
      && !LeftFits(s, node, index, updated)
      && RightFits(s, node, index, updated)
    ensures r.Ok? && r.value.0 == 1 ==> r.value.1 == s.pages[SiblingId(node, Wrap16(index + 1))]
    ensures r.Err? ==>
      || (index > 0 && r.error == UnknownPage(SiblingId(node, index - 1)))
      || r.error == UnknownPage(SiblingId(node, Wrap16(index + 1)))
    ensures r.Err? <==>
      && NBytes(updated) <= MERGE_THRESHOLD_BYTES
      && (|| (index > 0 && SiblingId(node, index - 1) !in s.pages)
          || (&& (index > 0 ==> SiblingId(node, index - 1) in s.pages)
              && !LeftFits(s, node, index, updated)
              && Wrap16(index + 1) < NKeys(node)
              && SiblingId(node, Wrap16(index + 1)) !in s.pages))
  {
    if NBytes(updated) > MERGE_THRESHOLD_BYTES then Ok((0, []))
    else
      var left: Result<Option<BNode>> :=
        if index > 0 then
          match Get(s, SiblingId(node, index - 1))
          case Err(e) => Err(e)
          case Ok(sibling) =>
            if MergedSize(sibling, updated) <= PAGE_SIZE then Ok(Some(sibling)) else Ok(None)
        else Ok(None);
      if left.Err? then Err(left.error)
      else if left.value.Some? then Ok((-1, left.value.value))
      else if Wrap16(index + 1) < NKeys(node) then
        match Get(s, SiblingId(node, Wrap16(index + 1)))
        case Err(e) => Err(e)
        case Ok(sibling) =>
          if MergedSize(sibling, updated) <= PAGE_SIZE then Ok((1, sibling)) else Ok((0, []))
      else Ok((0, []))
  }
}

=== FILE: node.dfy ===
/** The page codec of pkg/btree/node.go: a node (`BNode`) is a raw byte
    string read and written through typed accessors.

    Layout, little-endian throughout:
      [0:2) type tag, [2:4) entry count n,
      then n 8-byte pointer slots (reserved for every node, leaves included),
      then n 2-byte cumulative offsets (the offset of entry 0 is implicitly 0),
      then records [klen:2][vlen:2][key][val].
    All position arithmetic is uint16 and wraps modulo 2^16.
    Where Go would panic on a short slice, the accessor has a precondition. */
module Node {
  import opened Bytes
  import opened Errors

  const NODE: u16 := 1
  const LEAF: u16 := 2

  const PAGE_SIZE: int := 4096
  const HEADER: int := 4

  type BNode = Bytes

  predicate HasHeader(node: BNode) { |node| >= HEADER }

  function BType(node: BNode): u16
    requires HasHeader(node)
  {
    Le16(node, 0)
  }

  function NKeys(node: BNode): u16
    requires HasHeader(node)
  {
    Le16(node, 2)
  }

  /** Writes the type tag and entry count; everything after the header is kept. */
  function SetHeader(node: BNode, btype: u16, nkeys: u16): (r: BNode)
    requires HasHeader(node)
    ensures |r| == |node|
    ensures BType(r) == btype && NKeys(r) == nkeys
    ensures r[HEADER..] == node[HEADER..]
  {
    var t := WriteLe(node, 0, 2, btype);
    var r := WriteLe(t, 2, 2, nkeys);
    assert r[..2] == t[..2];
    r
  }

  // ---------------------------------------------------------------- pointers

  /** Byte position of pointer slot `index`: `HEADER_SIZE + 8*index` in uint16. */
  function PtrPos(index: u16): u16 {
    Wrap16(HEADER + 8 * index)
  }

  /** Pointer slots never overlap the header, and two slots share a position
      exactly when their indices agree modulo 8192 (where 8*index wraps). */
  lemma PtrPosShape(i: u16)
    ensures PtrPos(i) == HEADER + 8 * (i % 8192)
    ensures PtrPos(i) >= HEADER
  {
    var q := i / 8192;
    var m := i % 8192;
    assert i == 8192 * q + m;
    assert HEADER + 8 * i == U16_MOD * q + (HEADER + 8 * m);
    assert 0 <= HEADER + 8 * m < U16_MOD;
  }

  predicate IsValidIndex(node: BNode, index: u16)
    requires HasHeader(node)
  {
    index < NKeys(node)
  }

  predicate PtrInBounds(node: BNode, index: u16) {
    PtrPos(index) + 8 <= |node|
  }

  /** Reads pointer slot `index`; an index at or past the entry count fails. */
  function GetPtr(node: BNode, index: u16): (r: Result<u64>)
    requires HasHeader(node)
    requires IsValidIndex(node, index) ==> PtrInBounds(node, index)
    ensures r.Err? <==> index >= NKeys(node)
    ensures r.Err? ==> r.error == OutOfRangeIndex
    ensures r.Ok? ==> r.value == DecodeLe(node[PtrPos(index)..PtrPos(index) + 8])
  {
    if !IsValidIndex(node, index) then Err(OutOfRangeIndex)
    else Ok(Le64(node, PtrPos(index)))
  }

  /** Stores `val` in pointer slot `index`; an index at or past the entry
      count fails and nothing is written. */
  function SetPtr(node: BNode, index: u16, val: u64): (r: Result<BNode>)
    requires HasHeader(node)
    requires IsValidIndex(node, index) ==> PtrInBounds(node, index)
    ensures r.Err? <==> index >= NKeys(node)
    ensures r.Err? ==> r.error == OutOfRangeIndex
    ensures r.Ok? ==> |r.value| == |node| && r.value[..HEADER] == node[..HEADER]
    ensures r.Ok? ==> forall k :: 0 <= k < |node| && !(PtrPos(index) <= k < PtrPos(index) + 8) ==> r.value[k] == node[k]
    ensures r.Ok? ==> GetPtr(r.value, index) == Ok(val)
  {
    if !IsValidIndex(node, index) then Err(OutOfRangeIndex)
    else
      PtrPosShape(index);
      var next := WriteLe(node, PtrPos(index), 8, val);
      assert next[..HEADER] == node[..HEADER];
      assert NKeys(next) == NKeys(node) by {
        assert next[2..4] == node[2..4];
      }
      Ok(next)
  }

  /** A pointer store leaves the entry count, and every pointer slot at a
      different position, as it was. */
  lemma SetPtrKeepsOtherSlots(node: BNode, i: u16, j: u16, val: u64)
    requires HasHeader(node)
    requires IsValidIndex(node, i) && PtrInBounds(node, i)
    requires IsValidIndex(node, j) && PtrInBounds(node, j)
    requires i % 8192 != j % 8192
    ensures SetPtr(node, i, val).Ok?
    ensures NKeys(SetPtr(node, i, val).value) == NKeys(node)
    ensures GetPtr(SetPtr(node, i, val).value, j) == GetPtr(node, j)
  {
    var next := SetPtr(node, i, val).value;
    PtrPosShape(i);
    PtrPosShape(j);
    assert next[2..4] == node[2..4];
    assert next[PtrPos(j)..PtrPos(j) + 8] == node[PtrPos(j)..PtrPos(j) + 8];
  }

  // ----------------------------------------------------------------- offsets

  /** Byte position of the stored offset of entry `index` (index >= 1):
      `HEADER_SIZE + 8*nkeys + 2*(index-1)` in uint16. */
  function OffsetPos(node: BNode, index: u16): u16
    requires HasHeader(node)
    requires index >= 1
  {
    Wrap16(HEADER + 8 * NKeys(node) + 2 * (index - 1))
  }

  predicate OffsetInBounds(node: BNode, index: u16)
    requires HasHeader(node)
  {
    index == 0 || OffsetPos(node, index) + 2 <= |node|
  }

  /** Offset of entry `index` within the record region: 0 for entry 0,
      otherwise the stored 2-byte value. No range check, as in the source. */
  function GetOffset(node: BNode, index: u16): (r: u16)
    requires HasHeader(node)
    requires OffsetInBounds(node, index)
    ensures index == 0 ==> r == 0
    ensures index > 0 ==> r == DecodeLe(node[OffsetPos(node, index)..OffsetPos(node, index) + 2])
  {
    if index == 0 then 0 else Le16(node, OffsetPos(node, index))
  }

  /** Byte position of record `index`: header, n pointer slots, n offsets,
      then the offset, all in uint16. */
  function KvPosOf(node: BNode, index: u16): u16
    requires HasHeader(node)
    requires OffsetInBounds(node, index)
  {
    Wrap16(HEADER + 8 * NKeys(node) + 2 * NKeys(node) + GetOffset(node, index))
  }

  /** `kvPos`: fails exactly when `index > nkeys`; index == nkeys is the end
      of the last record. */
  function KvPos(node: BNode, index: u16): (r: Result<u16>)
    requires HasHeader(node)
    requires index <= NKeys(node) ==> OffsetInBounds(node, index)
    ensures r.Err? <==> index > NKeys(node)
    ensures r.Err? ==> r.error == InvalidIndex
    ensures r.Ok? ==> r.value == Wrap16(HEADER + 10 * NKeys(node) + GetOffset(node, index))
    ensures index == 0 ==> r == Ok(Wrap16(HEADER + 10 * NKeys(node)))
  {
    if !(index <= NKeys(node)) then Err(InvalidIndex)
    else Ok(KvPosOf(node, index))
  }

  /** Encoded size of the node: the position just past its last record. */
  function NBytes(node: BNode): (r: u16)
    requires HasHeader(node)
    requires OffsetInBounds(node, NKeys(node))
    ensures KvPos(node, NKeys(node)) == Ok(r)
    ensures NKeys(node) == 0 ==> r == HEADER
  {
    KvPosOf(node, NKeys(node))
  }

  // ------------------------------------------------------------ keys, values

  /** Position of the key bytes of the record at `pos` (Go: `pos+4`). */
  function KeyStart(pos: u16): u16 { Wrap16(pos + 4) }

  predicate KeyInBounds(node: BNode, index: u16)
    requires HasHeader(node)
    requires OffsetInBounds(node, index)
  {
    var pos := KvPosOf(node, index);
    && pos + 2 <= |node|
    && KeyStart(pos) + Le16(node, pos) <= |node|
  }

  predicate ValueInBounds(node: BNode, index: u16)
    requires HasHeader(node)
    requires OffsetInBounds(node, index)
  {
    var pos := KvPosOf(node, index);
    && pos + 2 <= |node|
    && Wrap16(pos + 2) + 2 <= |node|
    && Wrap16(pos + 4 + Le16(node, pos)) + Le16(node, Wrap16(pos + 2)) <= |node|
  }

  /** The key of entry `index`: `klen` bytes after the 4-byte record header.
      An index at or past the entry count fails. */
  function GetKey(node: BNode, index: u16): (r: Result<Bytes>)
    requires HasHeader(node)
    requires index < NKeys(node) ==> OffsetInBounds(node, index) && KeyInBounds(node, index)
    ensures r.Err? <==> index >= NKeys(node)
    ensures r.Err? ==> r.error == KeyIndexOutOfBounds
    ensures r.Ok? ==>
      var pos := KvPosOf(node, index);
      && |r.value| == Le16(node, pos)
      && r.value == node[KeyStart(pos)..KeyStart(pos) + |r.value|]
  {
    if index >= NKeys(node) then Err(KeyIndexOutOfBounds)
    else
      // kvPos cannot fail here: index < nkeys
      var pos := KvPosOf(node, index);
      var keylen := Le16(node, pos);
      Ok(node[KeyStart(pos)..KeyStart(pos) + keylen])
  }

  /** The value of entry `index`: `vlen` bytes right after the key.
      An index at or past the entry count fails. */
  function GetValue(node: BNode, index: u16): (r: Result<Bytes>)
    requires HasHeader(node)
    requires index < NKeys(node) ==> OffsetInBounds(node, index) && ValueInBounds(node, index)
    ensures r.Err? <==> index >= NKeys(node)
    ensures r.Err? ==> r.error == KeyIndexOutOfBounds
    ensures r.Ok? ==>
      var pos := KvPosOf(node, index);
      var start := Wrap16(pos + 4 + Le16(node, pos));
      && |r.value| == Le16(node, Wrap16(pos + 2))
      && r.value == node[start..start + |r.value|]
  {
    if index >= NKeys(node) then Err(KeyIndexOutOfBounds)
    else
      var pos := KvPosOf(node, index);
      var keylength := Le16(node, pos);
      var vallen := Le16(node, Wrap16(pos + 2));
      var start := Wrap16(pos + 4 + keylength);
      Ok(node[start..start + vallen])
  }

  /** One encoded record: key length, value length, key bytes, value bytes. */
  function Record(key: Bytes, val: Bytes): (r: Bytes)
    requires |key| < U16_MOD && |val| < U16_MOD
    ensures |r| == 4 + |key| + |val|
  {
    EncodeLe(|key|, 2) + EncodeLe(|val|, 2) + key + val
  }

  /** The fields of a record laid out at `pos`: the two length fields
      read back the lengths, and the key and value sit right after them. */
  lemma RecordFields(s: Bytes, pos: int, key: Bytes, val: Bytes)
    requires 0 <= pos && |key| < U16_MOD && |val| < U16_MOD
    requires pos + 4 + |key| + |val| <= |s|
    requires s[pos..pos + 4 + |key| + |val|] == Record(key, val)
    ensures Le16(s, pos) == |key| && Le16(s, pos + 2) == |val|
    ensures s[pos + 4..pos + 4 + |key|] == key
    ensures s[pos + 4 + |key|..pos + 4 + |key| + |val|] == val
  {
    var kl, vl := EncodeLe(|key|, 2), EncodeLe(|val|, 2);
    assert Record(key, val) == (kl + vl + key) + val;
    SliceSplit(s, pos, kl + vl + key, val);
    assert kl + vl + key == (kl + vl) + key;
    SliceSplit(s, pos, kl + vl, key);
    SliceSplit(s, pos, kl, vl);
    DecodeEncodeLe(|key|, 2);
    DecodeEncodeLe(|val|, 2);
  }

  /** Reading back a record: when the bytes at entry `index`'s position are
      `Record(key, val)` and the record does not straddle position 2^16,
      getKey and getValue return exactly `key` and `val`; in particular the
      value starts immediately after the key. */
  lemma ReadRecord(node: BNode, index: u16, key: Bytes, val: Bytes)
    requires HasHeader(node) && index < NKeys(node) && OffsetInBounds(node, index)
    requires |key| < U16_MOD && |val| < U16_MOD
    requires KvPosOf(node, index) + 4 + |key| + |val| <= |node|
    requires KvPosOf(node, index) + 4 + |key| < U16_MOD
    requires node[KvPosOf(node, index)..KvPosOf(node, index) + 4 + |key| + |val|] == Record(key, val)
    ensures KeyInBounds(node, index) && ValueInBounds(node, index)
    ensures GetKey(node, index) == Ok(key)
    ensures GetValue(node, index) == Ok(val)
  {
    var pos: int := KvPosOf(node, index);
    RecordFields(node, pos, key, val);
    assert KeyStart(pos) == pos + 4;
    assert Wrap16(pos + 2) == pos + 2;
    assert Wrap16(pos + 4 + |key|) == pos + 4 + |key|;
  }

  // ------------------------------------------------------------ readability

  /** Every accessor can read entry `index` without leaving the buffer. */
  predicate EntryInBounds(node: BNode, index: u16)
    requires HasHeader(node)
  {
    && PtrInBounds(node, index)
    && OffsetInBounds(node, index)
    && KeyInBounds(node, index)
    && ValueInBounds(node, index)
  }

  /** A node all of whose accessors, for every entry and for nbytes, stay
      inside the buffer: the reads the source performs never panic. */
  predicate Readable(node: BNode) {
    && HasHeader(node)
    && OffsetInBounds(node, NKeys(node))
    && forall i: int :: 0 <= i < NKeys(node) ==> EntryInBounds(node, i)
  }

  /** Every offset up to the entry count of a readable node can be read. */
  lemma OffsetReadable(node: BNode, index: u16)
    requires Readable(node) && index <= NKeys(node)
    ensures OffsetInBounds(node, index)
  {
    if index < NKeys(node) {
      assert EntryInBounds(node, index);
    }
  }

  /** The key of a valid entry of a readable node. */
  function KeyAt(node: BNode, index: u16): Bytes
    requires Readable(node) && index < NKeys(node)
  {
    assert EntryInBounds(node, index);
    GetKey(node, index).value
  }

  /** The keys of a readable node, in entry order. */
  function KeysOf(node: BNode): (ks: seq<Bytes>)
    requires Readable(node)
    ensures |ks| == NKeys(node)
    ensures forall i :: 0 <= i < |ks| ==> ks[i] == KeyAt(node, i)
  {
    seq(NKeys(node), i requires 0 <= i < NKeys(node) => KeyAt(node, i))
  }

  /** In a node whose bytes after the header are zero, every stored offset is 0. */
  lemma ZeroBodyOffsets(node: BNode, i: u16)
    requires HasHeader(node)
    requires forall k :: HEADER <= k < |node| ==> node[k] == 0
    requires HEADER + 10 * NKeys(node) + 4 <= |node|
    requires HEADER + 10 * NKeys(node) + 4 <= U16_MOD
    requires i <= NKeys(node)
    ensures OffsetInBounds(node, i) && GetOffset(node, i) == 0
    ensures KvPosOf(node, i) == HEADER + 10 * NKeys(node)
  {
    if i > 0 {
      assert OffsetPos(node, i) == HEADER + 8 * NKeys(node) + 2 * (i - 1);
      Le16OfZeros(node, OffsetPos(node, i));
    }
  }

  /** A node whose bytes after the header are all zero is readable when its
      pointer and offset tables fit: every offset is 0 and every record is
      the empty key with the empty value. */
  lemma ZeroBodyReadable(node: BNode)
    requires HasHeader(node)
    requires forall k :: HEADER <= k < |node| ==> node[k] == 0
    requires HEADER + 10 * NKeys(node) + 4 <= |node|
    requires HEADER + 10 * NKeys(node) + 4 <= U16_MOD
    ensures Readable(node)
    ensures NBytes(node) == HEADER + 10 * NKeys(node)
    ensures forall i :: 0 <= i < NKeys(node) ==> KeyAt(node, i) == []
  {
    var n := NKeys(node);
    var base: int := HEADER + 10 * n;
    Le16OfZeros(node, base);
    Le16OfZeros(node, base + 2);
    ZeroBodyOffsets(node, n);
    forall i: int | 0 <= i < n
      ensures EntryInBounds(node, i)
    {
      PtrPosShape(i);
      ZeroBodyOffsets(node, i);
    }
    forall i: int | 0 <= i < n
      ensures KeyAt(node, i) == []
    {
      ZeroBodyOffsets(node, i);
    }
  }
}

=== FILE: split.dfy ===
/** `nodeSplitInHalf` (pkg/btree/node.go): split a node's entries between a
    left and a right node under the 4096-byte page budget.

    The first loop shrinks the left count from nkeys/2 until `left_bytes`
    fits one page; it always stops, because `left_bytes` of 0 entries is 4.
    The second loop grows the left count while `right_bytes` exceeds the page.
    That loop has no evident termination measure in the source (uint16 wrap,
    and `right_bytes` need not fall as the count grows), so here it stops
    when the count reaches nkeys and the split fails with "error when
    shifting keys". Past nkeys the source's `left_bytes` reads offsets
    beyond the node's offset table, so what it does next depends on bytes
    the model leaves unconstrained: it may reach that error, wrap the count
    past 65535, or panic when the read runs off the end of a short buffer
    (a 28-byte LEAF of two empty entries panics at count 5). The model
    reports the error in every case. */
module Split {
  import opened Bytes
  import opened Errors
  import opened Node
  import opened Builder

  /** `left_bytes`: the encoded size of a node holding the first `numleft`
      entries of `prev` (header, pointer slots, offsets, and the records up
      to entry `numleft`), in uint16. */
  function LeftBytes(prev: BNode, numleft: u16): (r: u16)
    requires Readable(prev) && numleft <= NKeys(prev)
    ensures numleft == 0 ==> r == HEADER
  {
    OffsetReadable(prev, numleft);
    Wrap16(HEADER + 8 * numleft + 2 * numleft + GetOffset(prev, numleft))
  }

  /** `right_bytes` as written: `old.nbytes() - left_bytes()*4`, in uint16. */
  function RightBytes(prev: BNode, numleft: u16): u16
    requires Readable(prev) && numleft <= NKeys(prev)
  {
    Wrap16(NBytes(prev) - LeftBytes(prev, numleft) * 4)
  }

  /** The first loop: from `numleft` down to the largest count whose left
      half fits one page. */
  function ShrinkLeft(prev: BNode, numleft: u16): (r: u16)
    requires Readable(prev) && numleft <= NKeys(prev)
    ensures r <= numleft
    ensures LeftBytes(prev, r) <= PAGE_SIZE
    ensures forall k: u16 :: r < k <= numleft ==> LeftBytes(prev, k) > PAGE_SIZE
    decreases numleft
  {
    if LeftBytes(prev, numleft) > PAGE_SIZE then
      assert numleft > 0;
      var r := ShrinkLeft(prev, numleft - 1);
      r
    else numleft
  }

  /** The second loop, bounded by the entry count: from `numleft` up to the
      first count whose right half passes the `rightBytes` test, or nkeys. */
  function GrowLeft(prev: BNode, numleft: u16, rightBytes: (BNode, u16) --> u16): (r: u16)
    requires Readable(prev) && numleft <= NKeys(prev)
    requires forall k: u16 :: k <= NKeys(prev) ==> rightBytes.requires(prev, k)
    ensures numleft <= r <= NKeys(prev)
    ensures r < NKeys(prev) ==> rightBytes(prev, r) <= PAGE_SIZE
    ensures forall k: u16 :: numleft <= k < r ==> rightBytes(prev, k) > PAGE_SIZE
    decreases NKeys(prev) - numleft
  {
    if numleft >= NKeys(prev) then numleft
    else if rightBytes(prev, numleft) > PAGE_SIZE then GrowLeft(prev, numleft + 1, rightBytes)
    else numleft
  }

  /** The two halves a successful split produces. */
  datatype Halves = Halves(left: Built, right: Built)

  /** The second loop and the check after it (lines 204-214): from
      `start`, the first count below nkeys whose right half passes the
      `rightBytes` test, or "error when shifting keys" when none does. */
  function ShiftPoint(prev: BNode, start: u16, rightBytes: (BNode, u16) --> u16): (r: Result<u16>)
    requires Readable(prev) && start <= NKeys(prev)
    requires forall k: u16 :: k <= NKeys(prev) ==> rightBytes.requires(prev, k)
    ensures r.Err? ==> r.error == ShiftFailed
    ensures r.Err? <==> forall k: u16 :: start <= k < NKeys(prev) ==> rightBytes(prev, k) > PAGE_SIZE
    ensures r.Ok? ==> start <= r.value < NKeys(prev) && rightBytes(prev, r.value) <= PAGE_SIZE
    ensures r.Ok? ==> forall k: u16 :: start <= k < r.value ==> rightBytes(prev, k) > PAGE_SIZE
  {
    var grown := GrowLeft(prev, start, rightBytes);
    if grown >= NKeys(prev) then Err(ShiftFailed) else Ok(grown)
  }

  /** The left count the two loops settle on, with `rightBytes` as the size
      test of the second loop. */
  function SplitPoint(prev: BNode, rightBytes: (BNode, u16) --> u16): (r: Result<u16>)
    requires Readable(prev)
    requires forall k: u16 :: k <= NKeys(prev) ==> rightBytes.requires(prev, k)
    ensures r == Err(TooFewKeys) <==> NKeys(prev) < 2
    ensures r == Err(EmptyLeftHalf) <==>
      NKeys(prev) >= 2 && forall k: u16 :: 1 <= k <= NKeys(prev) / 2 ==> LeftBytes(prev, k) > PAGE_SIZE
    ensures r.Err? ==> r.error in {TooFewKeys, EmptyLeftHalf, ShiftFailed}
    ensures r.Ok? ==> 1 <= r.value < NKeys(prev) && rightBytes(prev, r.value) <= PAGE_SIZE
    ensures r.Ok? ==>
      var start := ShrinkLeft(prev, NKeys(prev) / 2);
      1 <= start <= r.value && start <= NKeys(prev) / 2 && LeftBytes(prev, start) <= PAGE_SIZE
  {
    var n := NKeys(prev);
    if n < 2 then Err(TooFewKeys)
    else
      var numleft := ShrinkLeft(prev, n / 2);
      if numleft < 1 then Err(EmptyLeftHalf)
      else
        assert LeftBytes(prev, numleft) <= PAGE_SIZE;
        ShiftPoint(prev, numleft, rightBytes)
  }

  /** The second loop's part of the split count: on success it is the
      first count from where the first loop stopped whose right half passes
      the test, and "error when shifting keys" happens exactly when no
      count from there up to nkeys passes it. */
  lemma SplitPointShift(prev: BNode, rightBytes: (BNode, u16) --> u16)
    requires Readable(prev)
    requires forall k: u16 :: k <= NKeys(prev) ==> rightBytes.requires(prev, k)
    ensures var r := SplitPoint(prev, rightBytes);
      r.Ok? ==> forall k: u16 :: ShrinkLeft(prev, NKeys(prev) / 2) <= k < r.value ==> rightBytes(prev, k) > PAGE_SIZE
    ensures SplitPoint(prev, rightBytes) == Err(ShiftFailed) <==>
      && NKeys(prev) >= 2 && ShrinkLeft(prev, NKeys(prev) / 2) >= 1
      && forall k: u16 :: ShrinkLeft(prev, NKeys(prev) / 2) <= k < NKeys(prev) ==> rightBytes(prev, k) > PAGE_SIZE
  {
    if NKeys(prev) >= 2 {
      var start := ShrinkLeft(prev, NKeys(prev) / 2);
      if start >= 1 {
        assert SplitPoint(prev, rightBytes) == ShiftPoint(prev, start, rightBytes);
      }
    }
  }

  /** `nodeSplitInHalf(left, right, old)` as written. It fails with fewer
      than 2 entries, when the left half shrinks to nothing, or when the
      left count reaches nkeys. On success both halves take the old type,
      their counts sum to nkeys and the left half holds entries
      0..numleft-1 in place; the right half, copying from source position 0
      (line 221), holds entries 0..numright-1 rather than the rest. */
  function SplitInHalf(left: BNode, right: BNode, prev: BNode): (r: Result<Halves>)
    requires HasHeader(left) && HasHeader(right) && Readable(prev)
    ensures r == Err(TooFewKeys) <==> NKeys(prev) < 2
    ensures r.Err? ==> r.error in {TooFewKeys, EmptyLeftHalf, ShiftFailed}
    ensures r.Err? ==> SplitPoint(prev, RightBytes) == Err(r.error)
    ensures r.Ok? ==>
      && |r.value.left.buf| == |left| && r.value.left.buf[HEADER..] == left[HEADER..]
      && |r.value.right.buf| == |right| && r.value.right.buf[HEADER..] == right[HEADER..]
    ensures r.Ok? ==> SplitPoint(prev, RightBytes) == Ok(NKeys(r.value.left.buf))
    ensures r.Ok? ==>
      var numleft := NKeys(r.value.left.buf);
      var numright := NKeys(r.value.right.buf);
      && 1 <= numleft < NKeys(prev)
      && numleft + numright == NKeys(prev)
      && BType(r.value.left.buf) == BType(prev) && BType(r.value.right.buf) == BType(prev)
      && RightBytes(prev, numleft) <= PAGE_SIZE
      && WritesInOrder(r.value.left.writes) && WritesInOrder(r.value.right.writes)
      && Entries(r.value.left.writes) == EntriesOf(prev)[..numleft]
      && Entries(r.value.right.writes) == EntriesOf(prev)[..numright]
  {
    var point := SplitPoint(prev, RightBytes);
    if point.Err? then Err(point.error)
    else
      var numleft := point.value;
      var numright := NKeys(prev) - numleft;
      var es := EntriesOf(prev);
      Ok(Halves(
        Built(SetHeader(left, BType(prev), numleft), CopyRange(es, 0, numleft)),
        Built(SetHeader(right, BType(prev), numright), CopyRange(es, 0, numright))))
  }

  /** `right_bytes` as evidently intended: the old size less the left
      half's records, plus the right half's own header. */
  function RightBytesCorrected(prev: BNode, numleft: u16): u16
    requires Readable(prev) && numleft <= NKeys(prev)
  {
    Wrap16(NBytes(prev) - LeftBytes(prev, numleft) + HEADER)
  }

  /** The cumulative record offset before entry i of a readable node. */
  function OffsetAt(prev: BNode, i: u16): u16
    requires Readable(prev) && i <= NKeys(prev)
  {
    OffsetReadable(prev, i);
    GetOffset(prev, i)
  }

  /** When no uint16 arithmetic wraps, the corrected `right_bytes` is the
      encoded size of a node holding entries numleft..nkeys-1: a header,
      10 bytes of pointer and offset per entry, and their records. */
  lemma RightBytesCorrectedIsRightSize(prev: BNode, numleft: u16)
    requires Readable(prev) && numleft <= NKeys(prev)
    requires HEADER + 10 * NKeys(prev) + OffsetAt(prev, NKeys(prev)) < U16_MOD
    requires OffsetAt(prev, numleft) <= OffsetAt(prev, NKeys(prev))
    ensures RightBytesCorrected(prev, numleft) ==
      HEADER + 10 * (NKeys(prev) - numleft) + (OffsetAt(prev, NKeys(prev)) - OffsetAt(prev, numleft))
  {
  }

  /** `nodeSplitInHalf` as evidently intended: the second loop measures the
      right half with `RightBytesCorrected`, and the right half copies the
      entries from position numleft on. The two halves together hold the
      old entries, in order. */
  function SplitInHalfCorrected(left: BNode, right: BNode, prev: BNode): (r: Result<Halves>)
    requires HasHeader(left) && HasHeader(right) && Readable(prev)
    ensures r == Err(TooFewKeys) <==> NKeys(prev) < 2
    ensures r.Err? ==> r.error in {TooFewKeys, EmptyLeftHalf, ShiftFailed}
    ensures r.Err? ==> SplitPoint(prev, RightBytesCorrected) == Err(r.error)
    ensures r.Ok? ==>
      && |r.value.left.buf| == |left| && r.value.left.buf[HEADER..] == left[HEADER..]
      && |r.value.right.buf| == |right| && r.value.right.buf[HEADER..] == right[HEADER..]
    ensures r.Ok? ==> SplitPoint(prev, RightBytesCorrected) == Ok(NKeys(r.value.left.buf))
    ensures r.Ok? ==>
      var numleft := NKeys(r.value.left.buf);
      var numright := NKeys(r.value.right.buf);
      && 1 <= numleft < NKeys(prev)
      && numleft + numright == NKeys(prev)
      && BType(r.value.left.buf) == BType(prev) && BType(r.value.right.buf) == BType(prev)
      && RightBytesCorrected(prev, numleft) <= PAGE_SIZE
      && WritesInOrder(r.value.left.writes) && WritesInOrder(r.value.right.writes)
      && Entries(r.value.left.writes) + Entries(r.value.right.writes) == EntriesOf(prev)
  {
    var point := SplitPoint(prev, RightBytesCorrected);
    if point.Err? then Err(point.error)
    else
      var numleft := point.value;
      var numright := NKeys(prev) - numleft;
      var w := SplitWrites(EntriesOf(prev), numleft);
      Ok(Halves(
        Built(SetHeader(left, BType(prev), numleft), w.0),
        Built(SetHeader(right, BType(prev), numright), w.1)))
  }

  /** Line 221: whenever the split succeeds, the right half's first writer
      call repeats the left half's first entry, entry 0 of the old node:
      entry 0 goes to both halves. */
  lemma SplitInHalfDuplicatesFirst(left: BNode, right: BNode, prev: BNode)
    requires HasHeader(left) && HasHeader(right) && Readable(prev)
    ensures var r := SplitInHalf(left, right, prev);
      r.Ok? ==>
        && |r.value.left.writes| >= 1 && |r.value.right.writes| >= 1
        && r.value.left.writes[0].entry == EntriesOf(prev)[0]
        && r.value.right.writes[0].entry == EntriesOf(prev)[0]
  {
  }

  /** A LEAF of two empty entries: header, then zeros (24 encoded bytes). */
  function TwoEmptyEntries(): (node: BNode)
    ensures Readable(node) && NKeys(node) == 2 && BType(node) == LEAF
    ensures NBytes(node) == 24 && LeftBytes(node, 1) == 14
  {
    var node := SetHeader(Zeros(PAGE_SIZE), LEAF, 2);
    assert forall k :: HEADER <= k < |node| ==> node[k] == 0 by {
      forall k | HEADER <= k < |node|
        ensures node[k] == 0
      {
        assert node[k] == node[HEADER..][k - HEADER];
      }
    }
    ZeroBodyReadable(node);
    ZeroBodyOffsets(node, 1);
    node
  }

  /** Line 205: on a two-entry node of 24 bytes whose halves need 14 bytes
      each (`TwoEmptyEntries` is one), `right_bytes` as written is 24 - 4*14
      wrapped to 65504, so the second loop pushes the whole node to the
      left and the split fails. */
  lemma RightBytesRejectsSmallNode(left: BNode, right: BNode, node: BNode)
    requires HasHeader(left) && HasHeader(right)
    requires Readable(node) && NKeys(node) == 2 && NBytes(node) == 24 && LeftBytes(node, 1) == 14
    ensures RightBytes(node, 1) == 65504
    ensures SplitInHalf(left, right, node) == Err(ShiftFailed)
  {
  }

  /** The same node under the corrected measure: the right half measures
      14 bytes and the split succeeds one entry to each side. */
  lemma CorrectedSplitsSmallNode(left: BNode, right: BNode, node: BNode)
    requires HasHeader(left) && HasHeader(right)
    requires Readable(node) && NKeys(node) == 2 && NBytes(node) == 24 && LeftBytes(node, 1) == 14
    ensures RightBytesCorrected(node, 1) == 14
    ensures var r := SplitInHalfCorrected(left, right, node);
      r.Ok? && NKeys(r.value.left.buf) == 1 && NKeys(r.value.right.buf) == 1
  {
  }

  /** The two-empty-entry LEAF is such a node: as written its split fails,
      under the corrected measure it splits one entry to each side. */
  lemma TwoEmptyEntriesSplit(left: BNode, right: BNode)
    requires HasHeader(left) && HasHeader(right)
    ensures SplitInHalf(left, right, TwoEmptyEntries()) == Err(ShiftFailed)
    ensures var r := SplitInHalfCorrected(left, right, TwoEmptyEntries());
      r.Ok? && NKeys(r.value.left.buf) == 1 && NKeys(r.value.right.buf) == 1
  {
    var node := TwoEmptyEntries();
    RightBytesRejectsSmallNode(left, right, node);
    CorrectedSplitsSmallNode(left, right, node);
  }
}

=== FILE: store.dfy ===
/** The page store behind `BTree` (pkg/btree/tree.go): the `get`, `create`
    and `del` callbacks, modelled as a map from page id to page plus a log
    of the creations and deletions made through it. Page id 0 is never
    handed out: the tree uses it for "no root". */
module Store {
  import opened Bytes
  import opened Errors
  import opened Node

  /** A page the store holds: a node every accessor can read. */
  type Page = node: BNode | Readable(node) witness [0, 0, 0, 0]

  const U64_MAX: int := 0xFFFF_FFFF_FFFF_FFFF

  datatype Event = Created(id: u64) | Deleted(id: u64)

  /** The pages held, the next id to hand out, and the calls made so far. */
  datatype Store = Store(pages: map<u64, Page>, next: u64, log: seq<Event>)

  /** Every held id is non-zero and below the next id to hand out. */
  predicate Valid(s: Store) {
    && 1 <= s.next
    && forall id :: id in s.pages ==> 1 <= id < s.next
  }

  /** `get(id)`: the page stored under `id`; an id the store does not hold
      is an error. */
  function Get(s: Store, id: u64): (r: Result<Page>)
    ensures r.Ok? <==> id in s.pages
    ensures r.Err? ==> r.error == UnknownPage(id)
  {
    if id in s.pages then Ok(s.pages[id]) else Err(UnknownPage(id))
  }

  /** `create(page)`: stores the page under the next id and logs it. The
      counter stops at the largest uint64. */
  function Create(s: Store, page: Page): (r: (Store, u64))
    ensures r.0.pages == s.pages[r.1 := page]
    ensures r.0.log == s.log + [Created(r.1)]
    ensures Valid(s) ==> r.1 !in s.pages && r.1 != 0
    ensures Valid(s) && s.next < U64_MAX ==> Valid(r.0) && r.0.next == s.next + 1
  {
    var id := s.next;
    (Store(s.pages[id := page], if id < U64_MAX then id + 1 else id, s.log + [Created(id)]), id)
  }

  /** `del(id)`: drops the page and logs the call. */
  function Del(s: Store, id: u64): (r: Store)
    ensures id !in r.pages
    ensures r.log == s.log + [Deleted(id)]
    ensures Valid(s) ==> Valid(r)
  {
    Store(s.pages - {id}, s.next, s.log + [Deleted(id)])
  }

  /** A created page can be read back under its id, and every other page
      reads as before. */
  lemma GetAfterCreate(s: Store, page: Page, other: u64)
    ensures var (t, id) := Create(s, page);
      && Get(t, id) == Ok(page)
      && (other != id ==> Get(t, other) == Get(s, other))
  {
  }

  /** A deleted page can no longer be read, and every other page reads as
      before. */
  lemma GetAfterDel(s: Store, id: u64, other: u64)
    ensures Get(Del(s, id), id) == Err(UnknownPage(id))
    ensures other != id ==> Get(Del(s, id), other) == Get(s, other)
  {
  }
}

=== FILE: tree.dfy ===
/** `treeInsert` and `BTree.Insert` (pkg/btree/tree.go): the descent that
    rebuilds the path to the leaf, and the root's life cycle over the page
    store. `nodeSplit3` and `nodeReplaceKidN` are not part of this model:
    they are passed in as functions. Of `nodeSplit3` the model assumes the
    1 to 3 readable pieces a node split is meant to produce. */
module Tree {
  import opened Bytes
  import opened Errors
  import opened Node
  import opened Lookup
  import opened Builder
  import opened Store

  /** The `2*BTREE_PAGE_SIZE_BYTES` buffer `treeInsert` builds into. */
  type DoubleBuf = b: BNode | |b| == 2 * PAGE_SIZE witness seq(2 * PAGE_SIZE, _ => 0)

  /** What `nodeSplit3` returns: a count and the pieces, of which the first
      `count` are used. */
  datatype Pieces = Pieces(count: u16, nodes: seq<Page>)

  /** The `nodeSplit3` results the model admits: 1 to 3 pieces, each a
      readable page. Go itself only needs count <= 3 to slice the array of
      3; a count of 0 is not modelled. */
  type Split3 = p: Pieces | 1 <= p.count <= 3 && p.count <= |p.nodes| witness Pieces(1, [[0, 0, 0, 0]])

  /** `nodeSplit3(node)`. */
  type Splitter = BNode -> Split3

  /** `nodeReplaceKidN(tree, next, node, index, kids)`: it may use the
      store, and writes into `next`, whose length a Go slice argument
      cannot change. */
  type Replacer = (Store, DoubleBuf, Page, u16, seq<Page>) -> (Store, DoubleBuf)

  /** The outcome of a `treeInsert` call: the store after it, the buffer it
      returns, and the writer calls it made on that buffer itself. */
  datatype Descent = Descent(store: Store, next: DoubleBuf, writes: seq<Write>)

  /** The key `getKey(index)` yields with its error discarded. */
  function KeyOrNil(node: Page, index: u16): (k: Bytes)
    ensures index < NKeys(node) ==> k == KeyAt(node, index)
    ensures index >= NKeys(node) ==> k == []
  {
    assert index < NKeys(node) ==> EntryInBounds(node, index);
    GetKey(node, index).GetOr([])
  }

  /** The pointer `getPtr(index)` yields with its error discarded. */
  function PtrOrZero(node: Page, index: u16): (p: u64)
    ensures index < NKeys(node) ==> p == EntriesOf(node)[index].ptr
    ensures index >= NKeys(node) ==> p == 0
  {
    assert index < NKeys(node) ==> EntryInBounds(node, index);
    GetPtr(node, index).GetOr(0)
  }

  /** The leaf branch of `treeInsert` as written (lines 26-28): the inner
      `key` shadows the argument, so `bytes.Equal(key, key)` always holds and
      the entry at the lookup index is updated with its OWN key and the new
      value; the insert branch is never taken. */
  function LeafStep(next: DoubleBuf, node: Page, key: Bytes, val: Bytes): (b: Built)
    ensures |b.buf| == |next|
    ensures BType(b.buf) == LEAF && NKeys(b.buf) == NKeys(node)
    ensures var index := NodeLookupLE(node, key);
      index < NKeys(node) ==>
        && |b.writes| == NKeys(node) && WritesInOrder(b.writes)
        && b.writes[index].entry == Entry(0, KeyAt(node, index), val)
        && forall i :: 0 <= i < |b.writes| && i != index ==> b.writes[i].entry == EntriesOf(node)[i]
  {
    var index := NodeLookupLE(node, key);
    var shadow := KeyOrNil(node, index);
    LeafUpdate(next, node, index, shadow, val)
  }

  /** The leaf branch as written hands the writer only keys the leaf
      already holds, or nil: the key being inserted reaches it only if it
      is already there. */
  lemma LeafStepWritesOldKeys(next: DoubleBuf, node: Page, key: Bytes, val: Bytes)
    ensures var b := LeafStep(next, node, key, val);
      forall i :: 0 <= i < |b.writes| ==> b.writes[i].entry.key in KeysOf(node) || b.writes[i].entry.key == []
  {
    var index := NodeLookupLE(node, key);
    var shadow := KeyOrNil(node, index);
    var es := EntriesOf(node);
    var w := UpdateWrites(es, index, Entry(0, shadow, val));
    assert LeafStep(next, node, key, val).writes == w;
    assert shadow in EntryKeys(es) || shadow == [] by {
      if index < NKeys(node) {
        assert shadow == EntryKeys(es)[index];
      }
    }
    UpdateWritesKeys(es, index, Entry(0, shadow, val));
  }

  /** The leaf branch when the key sorts before every stored key (or the
      leaf is empty): the lookup yields 0xFFFF, `getKey` fails so the key
      is nil, and `leafUpdate` makes 65536 + nkeys writer calls: the old
      entries and then (0, nil, nil) at positions 0..0xFFFE, (0, nil, val)
      at 0xFFFF, then every old entry again at its own position. Every
      call aimed below the count carries the old entry there, so the new
      value is never stored inside the node. */
  lemma LeafStepBelowAll(next: DoubleBuf, node: Page, key: Bytes, val: Bytes)
    requires NodeLookupLE(node, key) == NO_INDEX
    ensures NKeys(LeafStep(next, node, key, val).buf) == NKeys(node)
    ensures UpdatedAtNoIndex(LeafStep(next, node, key, val).writes, EntriesOf(node), Entry(0, [], val))
  {
    var es := EntriesOf(node);
    var e := Entry(0, [], val);
    assert KeyOrNil(node, NO_INDEX) == [];
    assert LeafStep(next, node, key, val).writes == LeafUpdate(next, node, NO_INDEX, [], val).writes;
    assert LeafUpdate(next, node, NO_INDEX, [], val).writes == UpdateWrites(es, 0xFFFF, e);
    UpdateWritesAtNoIndex(es, e);
  }

  /** Line 26 shadows `key`: at a LEAF, a key the node does not hold is
      never handed to the writer and the entry count does not grow, so the
      key is lost. */
  lemma TreeInsertLeafDropsNewKey(s: Store, node: Page, key: Bytes, val: Bytes,
                                  split3: Splitter, replaceKids: Replacer, fuel: nat)
    requires BType(node) == LEAF && key !in KeysOf(node) && key != []
    ensures var r := TreeInsert(s, node, key, val, split3, replaceKids, fuel);
      && r.Ok? && NKeys(r.value.next) == NKeys(node)
      && forall i :: 0 <= i < |r.value.writes| ==> r.value.writes[i].entry.key != key
  {
    LeafStepWritesOldKeys(Zeros(2 * PAGE_SIZE), node, key, val);
  }

  /** The keys of the entries handed to the writer, in call order. */
  function WriteKeys(ws: seq<Write>): (ks: seq<Bytes>)
    ensures |ks| == |ws| && forall i :: 0 <= i < |ws| ==> ks[i] == ws[i].entry.key
  {
    EntryKeys(Entries(ws))
  }

  /** The leaf branch as evidently intended (lines 26-30 with the
      argument compared): if the key at the lookup index equals `key`, that
      entry takes the new value; otherwise (key, val) is inserted just after
      the lookup index, which is position 0 when the lookup found nothing. */
  function LeafUpsert(next: DoubleBuf, node: Page, key: Bytes, val: Bytes): (b: Built)
    requires NKeys(node) < 0xFFFF
    ensures |b.buf| == |next| && BType(b.buf) == LEAF && WritesInOrder(b.writes)
    ensures var index := NodeLookupLE(node, key);
      index != NO_INDEX && KeyAt(node, index) == key ==>
        && NKeys(b.buf) == NKeys(node)
        && Entries(b.writes) == EntriesOf(node)[index := Entry(0, key, val)]
    ensures var index := NodeLookupLE(node, key);
      !(index != NO_INDEX && KeyAt(node, index) == key) ==>
        && NKeys(b.buf) == NKeys(node) + 1
        && Entries(b.writes) == EntriesOf(node)[..Wrap16(index + 1)] + [Entry(0, key, val)] + EntriesOf(node)[Wrap16(index + 1)..]
  {
    var index := NodeLookupLE(node, key);
    if index != NO_INDEX && KeyAt(node, index) == key then
      LeafUpdate(next, node, index, key, val)
    else
      assert Wrap16(index + 1) == if index == NO_INDEX then 0 else index + 1;
      LeafInsertCorrected(next, node, Wrap16(index + 1), key, val)
  }

  /** The intended property of the leaf branch: on a leaf whose keys are
      strictly increasing, the keys handed to the writer are strictly
      increasing, contain `key`, and contain every old key. */
  lemma LeafUpsertSorted(next: DoubleBuf, node: Page, key: Bytes, val: Bytes)
    requires NKeys(node) < 0xFFFF && StrictlySorted(KeysOf(node))
    ensures var ks := WriteKeys(LeafUpsert(next, node, key, val).writes);
      && StrictlySorted(ks)
      && key in ks
      && forall k :: k in KeysOf(node) ==> k in ks
  {
    var b := LeafUpsert(next, node, key, val);
    var es := EntriesOf(node);
    var index := NodeLookupLE(node, key);
    var e := Entry(0, key, val);
    if index != NO_INDEX && KeyAt(node, index) == key {
      EntryKeysUpdate(es, index, e);
      assert WriteKeys(b.writes)[index] == key;
    } else {
      var p := Wrap16(index as int + 1);
      LookupInsertionPoint(KeysOf(node), key);
      InsertKeepsSorted(KeysOf(node), p, key);
      EntryKeysInsert(es, p, e);
      assert WriteKeys(b.writes) == KeysOf(node)[..p] + [key] + KeysOf(node)[p..];
    }
  }

  /** `treeInsert(tree, node, key, val)`. A LEAF is rebuilt by `LeafStep`
      and the store is untouched. At an internal node the child at the
      lookup index is descended into (`ChildStep`) and `nodeReplaceKidN`
      rebuilds the node around the pieces. A node of any other type yields
      the zeroed buffer. The descent is bounded by `fuel`. */
  function TreeInsert(s: Store, node: Page, key: Bytes, val: Bytes,
                      split3: Splitter, replaceKids: Replacer, fuel: nat): (r: Result<Descent>)
    ensures BType(node) == LEAF ==>
      r == Ok(Descent(s, LeafStep(Zeros(2 * PAGE_SIZE), node, key, val).buf, LeafStep(Zeros(2 * PAGE_SIZE), node, key, val).writes))
    ensures BType(node) != LEAF && BType(node) != NODE ==>
      r == Ok(Descent(s, Zeros(2 * PAGE_SIZE), []))
    ensures BType(node) == NODE && r.Ok? ==>
      ChildStep(s, node, key, val, split3, replaceKids, fuel).Ok? && r.value.writes == []
    ensures BType(node) == NODE && r.Err? ==>
      ChildStep(s, node, key, val, split3, replaceKids, fuel) == Err(r.error)
    decreases fuel, 1
  {
    var next: DoubleBuf := Zeros(2 * PAGE_SIZE);
    if BType(node) == LEAF then
      var b := LeafStep(next, node, key, val);
      Ok(Descent(s, b.buf, b.writes))
    else if BType(node) == NODE then
      var index := NodeLookupLE(node, key);
      match ChildStep(s, node, key, val, split3, replaceKids, fuel)
      case Err(e) => Err(e)
      case Ok(c) =>
        var (s2, buf) := replaceKids(c.0, next, node, index, c.1.nodes[..c.1.count]);
        Ok(Descent(s2, buf, []))
    else Ok(Descent(s, next, []))
  }

  /** Lines 35-39: read the child pointer `kptr` at the lookup index (0 if
      the index is out of range), fetch the child, insert into it, split the
      result and free `kptr`. The store handed on has `kptr` deleted as its
      last call. */
  function ChildStep(s: Store, node: Page, key: Bytes, val: Bytes,
                     split3: Splitter, replaceKids: Replacer, fuel: nat): (r: Result<(Store, Split3)>)
    ensures var kptr := PtrOrZero(node, NodeLookupLE(node, key));
      && (r.Ok? ==> kptr !in r.value.0.pages && |r.value.0.log| >= 1 && r.value.0.log[|r.value.0.log| - 1] == Deleted(kptr))
      && (kptr !in s.pages ==> r == Err(UnknownPage(kptr)))
      && (fuel == 0 ==> r.Err?)
    ensures var kptr := PtrOrZero(node, NodeLookupLE(node, key));
      kptr in s.pages && fuel > 0 ==>
        var d := TreeInsert(s, s.pages[kptr], key, val, split3, replaceKids, fuel - 1);
        && (r.Ok? <==> d.Ok?)
        && (r.Ok? ==> r.value == (Del(d.value.store, kptr), split3(d.value.next)))
    decreases fuel, 0
  {
    var kptr := PtrOrZero(node, NodeLookupLE(node, key));
    match Get(s, kptr)
    case Err(e) => Err(e)
    case Ok(child) =>
      if fuel == 0 then Err(DepthExhausted)
      else
        match TreeInsert(s, child, key, val, split3, replaceKids, fuel - 1)
        case Err(e) => Err(e)
        case Ok(d) =>
          var pieces := split3(d.next);
          Ok((Del(d.store, kptr), pieces))
  }

  // ------------------------------------------------------------------ Insert

  /** The tree: its root page id (0 when empty) and its page store. */
  datatype BTree = BTree(root: u64, store: Store)

  /** A fresh page of `btype` announcing n entries, its body all zeros (the
      entry writer stores nothing). */
  function EmptyRoot(btype: u16, n: u16): (p: Page)
    requires HEADER + 10 * n + 4 <= PAGE_SIZE
    ensures |p| == PAGE_SIZE && BType(p) == btype && NKeys(p) == n
  {
    var node := SetHeader(Zeros(PAGE_SIZE), btype, n);
    assert forall k :: HEADER <= k < |node| ==> node[k] == 0 by {
      forall k | HEADER <= k < |node|
        ensures node[k] == 0
      {
        assert node[k] == node[HEADER..][k - HEADER];
      }
    }
    ZeroBodyReadable(node);
    node
  }

  /** The sentinel writer calls of the empty-tree case (lines 59-60). */
  const SENTINELS: seq<Write> := [Write(0, Entry(0, [], [])), Write(1, Entry(1, [], []))]

  /** Lines 55-62, an empty tree: one `create`, of a LEAF of 2 entries whose
      writer calls are the two sentinels, becoming the root; nothing is
      deleted. The key and value being inserted are not used. */
  function Bootstrap(s: Store): (r: (BTree, seq<Write>))
    ensures r.0.store.log == s.log + [Created(r.0.root)]
    ensures r.0.root in r.0.store.pages
    ensures var root := r.0.store.pages[r.0.root];
      BType(root) == LEAF && NKeys(root) == 2 && |root| == PAGE_SIZE
    ensures r.1 == SENTINELS
    ensures Valid(s) ==> r.0.root != 0 && r.0.root !in s.pages
  {
    var (s1, id) := Create(s, EmptyRoot(LEAF, 2));
    (BTree(id, s1), SENTINELS)
  }

  /** Lines 59-60 write two sentinels and nothing else: a first insert into
      an empty tree reports success, yet no writer call carries the
      inserted key, whatever it is (other than the empty key). */
  lemma BootstrapDropsPair(s: Store, key: Bytes, val: Bytes)
    requires key != []
    ensures var (t, writes) := Bootstrap(s);
      && NKeys(t.store.pages[t.root]) == 2
      && forall i :: 0 <= i < |writes| ==> writes[i].entry.key != key
  {
  }

  /** The empty-tree case as evidently intended: the first entry is the
      empty-key sentinel and the second is the inserted pair. */
  function BootstrapCorrected(s: Store, key: Bytes, val: Bytes): (r: (BTree, seq<Write>))
    ensures r.0.store.log == s.log + [Created(r.0.root)]
    ensures r.0.root in r.0.store.pages
    ensures var root := r.0.store.pages[r.0.root];
      BType(root) == LEAF && NKeys(root) == |r.1| == 2
    ensures WritesInOrder(r.1)
    ensures Entries(r.1) == [Entry(0, [], []), Entry(0, key, val)]
    ensures Valid(s) ==> r.0.root != 0 && r.0.root !in s.pages
  {
    var (s1, id) := Create(s, EmptyRoot(LEAF, 2));
    var writes := [Write(0, Entry(0, [], [])), Write(1, Entry(0, key, val))];
    assert Entries(writes) == [Entry(0, [], []), Entry(0, key, val)];
    (BTree(id, s1), writes)
  }

  /** The intended property: a non-empty key is handed to the writer, after
      the sentinel, and the leaf's keys are strictly increasing. */
  lemma BootstrapCorrectedStoresPair(s: Store, key: Bytes, val: Bytes)
    requires key != []
    ensures var (t, writes) := BootstrapCorrected(s, key, val);
      && Entry(0, key, val) in Entries(writes)
      && StrictlySorted(WriteKeys(writes))
  {
  }

  /** Line 75 for each piece in turn: create every page of `kids`, in
      order, logging one creation per page. */
  function CreateAll(s: Store, kids: seq<Page>): (r: (Store, seq<u64>))
    ensures |r.1| == |kids|
    ensures |r.0.log| == |s.log| + |kids| && r.0.log[..|s.log|] == s.log
    ensures forall i :: 0 <= i < |kids| ==> r.0.log[|s.log| + i] == Created(r.1[i])
    decreases |kids|
  {
    if |kids| == 0 then (s, [])
    else
      var (s1, id) := Create(s, kids[0]);
      var (s2, ids) := CreateAll(s1, kids[1..]);
      assert s2.log[..|s.log|] == s.log by {
        assert s2.log[..|s1.log|] == s1.log;
      }
      (s2, [id] + ids)
  }

  /** On a valid store with room for the ids, `CreateAll` hands out
      consecutive fresh ids, stores each page under its id, and keeps every
      page already held. */
  lemma {:induction false} CreateAllStores(s: Store, kids: seq<Page>)
    requires Valid(s) && s.next + |kids| <= U64_MAX
    ensures var (t, ids) := CreateAll(s, kids);
      && Valid(t) && t.next == s.next + |kids|
      && (forall i :: 0 <= i < |kids| ==> ids[i] == s.next + i && ids[i] in t.pages && t.pages[ids[i]] == kids[i])
      && forall id :: id in s.pages ==> id in t.pages && t.pages[id] == s.pages[id]
    decreases |kids|
  {
    if |kids| > 0 {
      var (s1, id) := Create(s, kids[0]);
      CreateAllStores(s1, kids[1..]);
      var (t, ids) := CreateAll(s, kids);
      assert ids[1..] == CreateAll(s1, kids[1..]).1;
    }
  }

  /** Lines 72-79: create every piece, then a new INTERNAL root holding one
      entry per piece (the piece's id and first key, no value). */
  function RootOver(s: Store, kids: seq<Page>): (r: (BTree, seq<Write>))
    requires 2 <= |kids| <= 3
    ensures var log := r.0.store.log;
      && |log| == |s.log| + |kids| + 1 && log[..|s.log|] == s.log
      && (forall j :: |s.log| <= j < |log| ==> log[j].Created?)
      && log[|log| - 1] == Created(r.0.root)
    ensures r.0.root in r.0.store.pages
    ensures BType(r.0.store.pages[r.0.root]) == NODE && NKeys(r.0.store.pages[r.0.root]) == |kids|
    ensures |r.1| == |kids| && WritesInOrder(r.1)
    ensures forall i :: 0 <= i < |kids| ==>
      && r.1[i].entry == Entry(r.1[i].entry.ptr, KeyOrNil(kids[i], 0), [])
      && r.0.store.log[|s.log| + i] == Created(r.1[i].entry.ptr)
  {
    var (s2, ids) := CreateAll(s, kids);
    var writes := seq(|kids|, i requires 0 <= i < |kids| => Write(i, Entry(ids[i], KeyOrNil(kids[i], 0), [])));
    var (s3, id) := Create(s2, EmptyRoot(NODE, |kids|));
    assert s3.log[..|s.log|] == s.log by {
      assert s3.log[..|s2.log|] == s2.log;
    }
    forall j | |s.log| <= j < |s3.log|
      ensures s3.log[j].Created?
    {
      if j < |s2.log| {
        assert s3.log[j] == s2.log[j];
        assert s2.log[|s.log| + (j - |s.log|)] == Created(ids[j - |s.log|]);
      }
    }
    (BTree(id, s3), writes)
  }

  /** Lines 69-81 given the pieces `nodeSplit3` returned: the old root is
      deleted exactly once, first; then, for more than one piece, every
      piece is created and a new INTERNAL root with one entry per piece
      (its id, and the piece's first key) is created; for one piece, that
      piece is created as the root. The last call is always the root's
      creation. */
  function Grow(s: Store, root: u64, pieces: Split3): (r: (BTree, seq<Write>))
    ensures var log := r.0.store.log;
      && |log| == |s.log| + 1 + (if pieces.count > 1 then pieces.count + 1 else 1)
      && log[..|s.log|] == s.log
      && log[|s.log|] == Deleted(root)
      && (forall j :: |s.log| < j < |log| ==> log[j].Created?)
      && log[|log| - 1] == Created(r.0.root)
    ensures r.0.root in r.0.store.pages
  {
    var s1 := Del(s, root);
    if pieces.count > 1 then
      var r := RootOver(s1, pieces.nodes[..pieces.count]);
      DeletedThenCreated(s.log, root, r.0.store.log);
      r
    else
      var (s2, id) := Create(s1, pieces.nodes[0]);
      DeletedThenCreated(s.log, root, s2.log);
      (BTree(id, s2), [])
  }

  /** A log that continues `before` with one deletion and then only
      creations. */
  lemma DeletedThenCreated(before: seq<Event>, root: u64, after: seq<Event>)
    requires |after| >= |before| + 1
    requires after[..|before| + 1] == before + [Deleted(root)]
    requires forall j :: |before| + 1 <= j < |after| ==> after[j].Created?
    ensures after[..|before|] == before && after[|before|] == Deleted(root)
    ensures forall j :: |before| < j < |after| ==> after[j].Created?
  {
    assert after[..|before|] == after[..|before| + 1][..|before|];
    assert after[|before|] == after[..|before| + 1][|before|];
  }

  /** The root `Grow` installs: for one piece, that piece, with no writer
      calls; for several, an INTERNAL page announcing one entry per piece,
      whose writer call i records the id created for piece i (the
      (i+1)-th call after the deletion) and the piece's first key. */
  lemma GrowRoot(s: Store, root: u64, pieces: Split3)
    ensures var (t, writes) := Grow(s, root, pieces);
      && (pieces.count == 1 ==> writes == [] && t.store.pages[t.root] == pieces.nodes[0])
      && (pieces.count > 1 ==>
        && BType(t.store.pages[t.root]) == NODE && NKeys(t.store.pages[t.root]) == pieces.count
        && |writes| == pieces.count && WritesInOrder(writes)
        && forall i :: 0 <= i < pieces.count ==>
             && writes[i].entry == Entry(writes[i].entry.ptr, KeyOrNil(pieces.nodes[i], 0), [])
             && t.store.log[|s.log| + 1 + i] == Created(writes[i].entry.ptr))
  {
  }

  /** On a valid store with room for four more ids, `Grow` keeps the store
      valid, the new root id is non-zero and was not in use, and every
      piece is stored under the id its root entry records. */
  lemma GrowStores(s: Store, root: u64, pieces: Split3)
    requires Valid(s) && s.next + 4 <= U64_MAX
    ensures var (t, writes) := Grow(s, root, pieces);
      && Valid(t.store)
      && t.root != 0 && t.root !in s.pages
      && (pieces.count > 1 ==> forall i :: 0 <= i < pieces.count ==>
            writes[i].entry.ptr in t.store.pages && t.store.pages[writes[i].entry.ptr] == pieces.nodes[i])
  {
    var s1 := Del(s, root);
    if pieces.count > 1 {
      CreateAllStores(s1, pieces.nodes[..pieces.count]);
    }
  }

  /** `BTree.Insert(key, val)`. The size check refuses first; an empty tree
      gets its first root (`Bootstrap`); otherwise the root page is fetched,
      the key inserted into it (`TreeInsert`), the result split, and the
      root replaced (`Grow`). `withinLimit` is `checkLimit` returning nil. */
  function Insert(t: BTree, key: Bytes, val: Bytes, withinLimit: (Bytes, Bytes) -> bool,
                  split3: Splitter, replaceKids: Replacer, fuel: nat): (r: Result<(BTree, seq<Write>)>)
    ensures !withinLimit(key, val) ==> r == Err(LimitExceeded)
    ensures withinLimit(key, val) && t.root == 0 ==> r == Ok(Bootstrap(t.store))
    ensures withinLimit(key, val) && t.root != 0 && t.root !in t.store.pages ==> r == Err(UnknownPage(t.root))
    ensures withinLimit(key, val) && t.root != 0 && r.Ok? ==>
      && t.root in t.store.pages
      && var d := TreeInsert(t.store, t.store.pages[t.root], key, val, split3, replaceKids, fuel);
         d.Ok? && r.value == Grow(d.value.store, t.root, split3(d.value.next))
    ensures withinLimit(key, val) && t.root != 0 && t.root in t.store.pages ==>
      (r.Ok? <==> TreeInsert(t.store, t.store.pages[t.root], key, val, split3, replaceKids, fuel).Ok?)
  {
    if !withinLimit(key, val) then Err(LimitExceeded)
    else if t.root == 0 then Ok(Bootstrap(t.store))
    else
      match Get(t.store, t.root)
      case Err(e) => Err(e)
      case Ok(page) =>
        match TreeInsert(t.store, page, key, val, split3, replaceKids, fuel)
        case Err(e) => Err(e)
        case Ok(d) => Ok(Grow(d.store, t.root, split3(d.next)))
  }
}
